=== FILE: README.md ===
# Portfolio admin: project CRUD and its forms, in Dafny

This project models the admin side of a personal portfolio site. It covers two parts:

- the server actions `InsertProjects`, `UpdateProjects`, `DeleteProjects` and `GetProjects`, which work over the single `projects` table;
- the two admin modals that turn form text into action payloads and back.

Each server action is a pure function. It takes the table and its inputs and returns the reply and the new table. The inputs are:

- the next-auth session, with an email claim that can be undefined, null or a string;
- the configured `ADMIN_EMAIL`, which can be unset;
- the raw payload, as untyped JSON-like values;
- a fresh UUID and the current time, standing in for the database defaults;
- an optional database fault message.

The modals are state machines. Their state is the form text, the error line and the delete-confirmation flag. Each step also returns the callbacks it fires, in order.

Modules:

- `Wrappers`: `Option` and `Nullable`. `Nullable` is a JavaScript slot that can be undefined, null or a value.
- `Text`: JavaScript `trim`, `split(",")` and `join`, with their laws.
- `Schema`: the `projects` row, the raw payload, validation by the insert schema, and the table invariant (UUID primary key).
- `Actions`: the authorisation gate and the four server actions.
- `ActionLaws`: guard order, frame conditions, error conversion, and invariant preservation.
- `Forms`: the conversions between the text form and the payload, and their round trips.
- `InsertModal` and `EditModal`: the two modal state machines.
- `Scenarios`: lemmas that send a modal's payload through a server action.

The model follows the code in three places where stricter behaviour might be expected:

- Names and descriptions are not checked for non-emptiness on the server; only the inputs' HTML `required` attribute does that (`Scenarios.EmptyNameReachesTable`).
- The demo link is not checked as a URL by the schema.
- A client may supply `id` and `createdAt` on insert. The schema accepts both (`createInsertSchema` makes them optional), and the row then uses them instead of the defaults.

Modelling choices:

- The gate is the strict equality `session?.user?.email !== ADMIN_EMAIL`. When both are absent, the caller passes. A null email never passes, because `null !== undefined`.
- The nullable columns keep undefined and null apart in validated payloads. `update().set()` skips undefined keys, so an update that omits `demoLink`, `githubLinks` or `tags` keeps the stored value. An explicit null clears it. On insert, both undefined and null become SQL NULL.
- Two Postgres errors are modelled:
  - A primary-key collision on insert. This covers a supplied id that is already taken, and also a fresh id that collides.
  - A delete whose id is not UUID text.

  Both come back as `{ success: false, error: message }`. Other refusals by Postgres come in only through the `fault` parameter (see "## Left out").
- The `uuid` primary key compares values, not text. Postgres stores and returns a UUID with lower-case hexadecimal letters, whatever case it was sent in. The model stores `CanonUuid` of the id and matches rows against `CanonUuid` of the key, so an id in capitals finds the stored row (`ActionLaws.CaseVariantFindsStoredRow`). The reply keeps the id as the client sent it, because the actions return the validated payload and not the stored row.

## Model

| member | source | states |
|---|---|---|
| Wrappers.OrNull | app/admin/components/InsertProjectModal.tsx:46-52 | `x ? … : null` sends every column: a missing value becomes `null`, a present one is sent as is |
| Text.IsWhitespace | app/admin/components/InsertProjectModal.tsx:48 | the characters `trim()` strips: JavaScript's WhiteSpace and LineTerminator code points |
| Text.TrimStart | app/admin/components/InsertProjectModal.tsx:48 | the result is a suffix of the input that does not start with whitespace |
| Text.TrimEnd | app/admin/components/InsertProjectModal.tsx:48 | the result is a prefix of the input that does not end with whitespace |
| Text.TrimStartDropsWhitespace | app/admin/components/InsertProjectModal.tsx:48 | every character `TrimStart` drops is whitespace |
| Text.TrimEndDropsWhitespace | app/admin/components/InsertProjectModal.tsx:48 | every character `TrimEnd` drops is whitespace |
| Text.Trim | app/admin/components/InsertProjectModal.tsx:48 | `trim()` leaves no whitespace at either end |
| Text.TrimEndOfTrimStart | app/admin/components/InsertProjectModal.tsx:48 | trimming the end after the start leaves neither end with whitespace |
| Text.TrimEmptyIffBlank | app/admin/components/InsertProjectModal.tsx:48-49 | `trim()` is empty exactly when the input is whitespace only, which is what lets `filter(Boolean)` drop blank pieces |
| Text.TrimIsInfix | app/admin/components/InsertProjectModal.tsx:48 | the trimmed text is the contiguous infix of the input that starts right after the leading whitespace |
| Text.TrimSurroundings | app/admin/components/InsertProjectModal.tsx:48 | the input is blank before and after the trimmed text |
| Text.TrimTrailingBlank | app/admin/components/InsertProjectModal.tsx:48 | the input is blank after the trimmed text |
| Text.TrimKeepsOut | app/admin/components/InsertProjectModal.tsx:48 | trimming adds no character: one absent from the input is absent from the result |
| Text.TrimOfTrimmed | app/admin/components/InsertProjectModal.tsx:48 | trimming a string with no outer whitespace returns it unchanged (so trimming is idempotent) |
| Text.TrimStartAfterBlank | app/admin/components/EditProjectModal.tsx:69 | leading whitespace before a non-blank item is exactly what trimming the start removes |
| Text.TrimAfterBlank | app/admin/components/EditProjectModal.tsx:69 | trimming `" " + item` gives back a trimmed non-empty item |
| Text.Split | app/admin/components/InsertProjectModal.tsx:48 | `split(",")` returns at least one piece and no piece contains a comma |
| Text.SplitCommaFree | app/admin/components/InsertProjectModal.tsx:48 | a comma-free string splits into itself alone |
| Text.SplitAtComma | app/admin/components/InsertProjectModal.tsx:48 | the pieces of `a + "," + b` are the pieces of `a` followed by those of `b`, so pieces keep input order |
| Text.Join | app/admin/components/EditProjectModal.tsx:36 | joining no items gives the empty string, and otherwise the text starts with the first item |
| Text.JoinSplit | app/admin/components/InsertProjectModal.tsx:48 | joining the pieces with `","` reconstructs the input |
| Text.JoinPrepend | app/admin/components/EditProjectModal.tsx:36 | putting a character in front of the first item puts it in front of the join |
| Text.SplitJoin | app/admin/components/InsertProjectModal.tsx:48 | splitting a `","`-join of comma-free items gives the items back |
| Schema.IsUuid | app/db/schema.ts:6 | the UUID text that zod's `uuid()` check and Postgres's `uuid` input accept: `8-4-4-4-12` hexadecimal digits in either letter case |
| Schema.DecodeId | app/db/schema.ts:6 | the id column is optional on insert and, when given, must be a UUID string, which is kept as sent |
| Schema.DecodeText | app/db/schema.ts:7-8 | a required text column accepts exactly a string and keeps it |
| Schema.DecodeTextArray | app/db/schema.ts:9-11 | an optional, nullable text-array column: omitted stays omitted, null stays null, and an array is accepted iff all its elements are strings |
| Schema.DecodeNullableText | app/db/schema.ts:10 | an optional, nullable text column: omitted, null or a string, each kept apart |
| Schema.DecodeTimestamp | app/db/schema.ts:12 | the creation time is optional on insert and, when given, must be a date |
| Schema.BadColumns | app/db/schema.ts:5-17 | the error list has at most seven entries, one slot per column of the schema |
| Schema.BadColumnsInColumnOrder | app/db/schema.ts:5-17 | the error list names the failing columns in the schema's declaration order, each at most once |
| Schema.BadColumnsNamesFailures | app/db/schema.ts:5-17 | a column is in the error list exactly when its field fails that column's check |
| Schema.DecodeStrings | app/db/schema.ts:9 | a text array decodes iff every element is a string, and then element by element to those strings |
| Schema.EncodeStrings | app/db/schema.ts:9 | encoding a string list gives one string value per item, in order |
| Schema.Truthy | app/admin/action.ts:35 | JavaScript truthiness of a payload field: undefined, null, `false`, `0` and `""` are falsy, everything else truthy |
| Schema.Validate | app/db/schema.ts:5-17 | the insert schema accepts a payload iff no column is ill-typed; a rejection lists exactly the ill-typed columns, and acceptance returns a draft that re-encodes to the payload |
| Schema.EncodeDecodeStrings | app/db/schema.ts:9-11 | an accepted array column re-encodes to exactly the field that was sent |
| Schema.DecodeEncodeList | app/db/schema.ts:9-11 | an omitted, null or listed array column, encoded, decodes to exactly what was encoded |
| Schema.DecodeEncodeStrings | app/db/schema.ts:9 | decoding an encoded string list returns the list |
| Schema.Encode | app/db/schema.ts:5-17 | the payload a client sends to have a draft parsed back, with omitted, null and present columns kept apart; `ValidateEncode` states that it inverts `Validate` |
| Schema.ValidateEncode | app/db/schema.ts:17 | round trip: every draft with a UUID-or-absent id is accepted from its own encoding and returned unchanged |
| Schema.LowerHex | app/db/schema.ts:6 | a character as Postgres prints it inside a UUID: `A`-`F` become `a`-`f`, and everything else is kept |
| Schema.CanonUuid | app/db/schema.ts:6 | the text Postgres stores for a UUID: the same length, with every hexadecimal letter in lower case |
| Schema.CanonUuidIsCanon | app/db/schema.ts:6 | the canonical text of any UUID spelling is itself a UUID, with no upper-case letter |
| Schema.CanonOfCanon | app/db/schema.ts:6 | canonical text is its own canonical form |
| Schema.HasKey | app/db/schema.ts:6 | some row holds the given key text |
| Schema.WellFormedTable | app/db/schema.ts:6 | every id is a UUID in canonical text, and no two rows share an id |
| Schema.ValidIsWellFormed | app/db/schema.ts:6 | an accepted id is a UUID, and the draft has an id iff the payload supplied one |
| Actions.EmailClaim | app/admin/action.ts:10-11 | `session?.user?.email` is undefined without a session or without a user, otherwise the user's email as stored; it is undefined exactly in those cases or when the stored email is undefined |
| Actions.InvalidUuid | app/admin/action.ts:69-70 | the Postgres error for a delete id that is not UUID text; the id stands in double quotes at its end and can be read back from it |
| Actions.DuplicateKey | app/admin/action.ts:19 | the Postgres error for an insert that repeats a primary key |
| Actions.Authorised | app/admin/action.ts:11 | the gate passes exactly when the session's email claim strictly equals `ADMIN_EMAIL`, with undefined and null kept apart; `AuthorisedCases` spells out who passes |
| Actions.AuthorisedCases | app/admin/action.ts:11 | the gate admits exactly the configured email, or only callers with no email claim when none is configured; a null email never passes |
| Actions.NewRow | app/admin/action.ts:19 | the inserted row takes every column from the payload, the canonical text of the supplied id or else of a fresh one, the supplied time or else now, and NULL for omitted or null columns |
| Actions.InsertProjects | app/admin/action.ts:7-26 | success means the payload validated to the returned draft and exactly that row was appended; any failure leaves the table unchanged |
| Actions.Assign | app/admin/action.ts:42-50 | an omitted column keeps its value, null clears it, and a value replaces it |
| Actions.Overwrite | app/admin/action.ts:43-49 | `.set()` writes the name, the description, and the link and lists as `Assign` says; the id and the creation time are kept |
| Actions.UpdateWhere | app/admin/action.ts:42-50 | the rows with the key are overwritten, all other rows are unchanged, and the length is kept |
| Actions.UpdateProjects | app/admin/action.ts:28-57 | success means the payload validated with an id and the rows holding that UUID, matched in canonical text, were overwritten; any failure leaves the table unchanged |
| Actions.DeleteWhere | app/admin/action.ts:69-70 | no row with the key remains, and the table never grows |
| Actions.DeleteWhereKeeps | app/admin/action.ts:69-70 | every row with another key remains, and the result is a sub-multiset of the table |
| Actions.DeleteWhereSubMultiset | app/admin/action.ts:69-70 | deleting adds no row and no copy of a row |
| Actions.DeleteWhereKeepsOthers | app/admin/action.ts:69-70 | every row whose id differs from the key survives |
| Actions.DeleteProjects | app/admin/action.ts:59-75 | the reply is undefined exactly for an authorised call with a non-empty UUID id and no fault; then the rows holding that UUID, matched in canonical text, are deleted; otherwise the reply is a failure and the table is unchanged |
| Actions.NewestFirst | app/admin/action.ts:81 | `desc(createdAt)`: creation times never increase along the list |
| Actions.InsertByDate | app/admin/action.ts:80-82 | inserting into a newest-first list keeps it newest first and adds exactly that row |
| Actions.NewestFirstTail | app/admin/action.ts:82 | the rest of a newest-first list is newest first, and its head is at least as new as the next row |
| Actions.ConsNewestFirst | app/admin/action.ts:82 | a row at least as new as the head of a newest-first list can go in front of it |
| Actions.SortNewestFirst | app/admin/action.ts:80-82 | the same rows (as a multiset), ordered by `createdAt` descending |
| Actions.GetProjects | app/admin/action.ts:77-89 | without authorisation it returns every row newest first, or the fault message when the database fails |
| ActionLaws.DeniedChangesNothing | app/admin/action.ts:10-11 | Insert, Update and Delete all return the not-authorised message and leave the table unchanged when the gate fails |
| ActionLaws.InsertOutcomes | app/admin/action.ts:7-26 | Insert succeeds iff authorised, valid, no fault and the row's id is free; invalid payloads get the column errors and faults get their message, with no change to the table |
| ActionLaws.InsertAddsOneRow | app/admin/action.ts:19-21 | a successful insert appends one new-keyed row whose columns are the payload's; the reply is the payload itself, with an id only if the client sent one |
| ActionLaws.UpdateGuardOrder | app/admin/action.ts:31-41 | Update checks the gate, then a truthy id, then validation; the first failing check decides the reply and the table is unchanged |
| ActionLaws.UpdateFrame | app/admin/action.ts:42-52 | a successful update keeps ids, creation times and the rows holding other UUIDs; the rows holding the payload's UUID, in any letter case, get exactly the five mutable columns |
| ActionLaws.UpdateMissingKey | app/admin/action.ts:50 | updating a key no row has changes nothing |
| ActionLaws.UpdateUnknownIdSucceeds | app/admin/action.ts:42-52 | an update whose id matches no row still replies with success and leaves the table unchanged |
| ActionLaws.DeleteMissingKey | app/admin/action.ts:69-70 | deleting a key no row has changes nothing |
| ActionLaws.DeleteOutcomes | app/admin/action.ts:66-74 | an empty id gets the missing-id message; otherwise the rows holding the UUID, in any letter case, go, the others stay, the reply is undefined, and an absent UUID is a silent no-op |
| ActionLaws.FaultsBecomeMessages | app/admin/action.ts:23-25 | a database failure in any action is returned as `{ success: false, error: message }` and the table is unchanged |
| ActionLaws.InsertKeepsTableWellFormed | app/db/schema.ts:6 | after an insert, ids are still UUIDs in canonical text and still unique, so no two rows hold one UUID in different letter case |
| ActionLaws.UpdateKeepsTableWellFormed | app/db/schema.ts:6 | after an update, ids are still UUIDs and still unique |
| ActionLaws.DeleteWhereKeepsWellFormed | app/db/schema.ts:6 | deleting keeps ids UUIDs and unique, and introduces no new id |
| ActionLaws.DeleteKeepsTableWellFormed | app/db/schema.ts:6 | after a delete, ids are still UUIDs and still unique |
| ActionLaws.KeysDistinctAsUuids | app/db/schema.ts:6 | in a well-formed table no two rows hold the same UUID, even compared regardless of letter case |
| ActionLaws.KeysMatchInAnyCase | app/admin/action.ts:50-70 | two spellings of one UUID that differ only in letter case change the table identically under Update and Delete |
| ActionLaws.UpdateMatchesInAnyCase | app/admin/action.ts:42-50 | an update payload whose id differs only in letter case leaves the same table |
| ActionLaws.CaseVariantFindsStoredRow | app/admin/action.ts:19-70 | in any table, an insert whose id spells a stored row's UUID in any letter case fails with the duplicate-key error and keeps the table; under a unique key, a delete with that spelling succeeds, removes that row and shrinks the table by one |
| ActionLaws.DeleteOneRow | app/admin/action.ts:69-70 | with a unique key, deleting a present id removes exactly one row |
| ActionLaws.InsertedRowIsListed | app/admin/action.ts:77-84 | after a successful insert, the listing contains the new row and has one more row |
| Forms.SetInput | app/admin/components/InsertProjectModal.tsx:26-28 | a change sets the named input and leaves the other four as they were |
| Forms.Submittable | app/admin/components/InsertProjectModal.tsx:100-114 | the browser submits a form only when the name and the description inputs are non-empty |
| Forms.ShownError | app/admin/components/InsertProjectModal.tsx:59 | a string error is shown as is and field errors show the fallback text |
| Forms.CleanPieces | app/admin/components/InsertProjectModal.tsx:48 | trim-and-filter never yields more items than there were pieces |
| Forms.TrimmedPieceIsItem | app/admin/components/InsertProjectModal.tsx:48 | a comma-free piece, trimmed, is either empty or a clean item |
| Forms.CleanPiecesAreItems | app/admin/components/InsertProjectModal.tsx:48 | trim-and-filter over comma-free pieces yields only non-empty, trimmed, comma-free items |
| Forms.Items | app/admin/components/InsertProjectModal.tsx:48 | at most one item comes out of each comma-separated piece |
| Forms.ParseList | app/admin/components/InsertProjectModal.tsx:47-52 | empty text becomes null and any other text becomes a list |
| Forms.ParsedItemsAreClean | app/admin/components/InsertProjectModal.tsx:47-52 | every parsed item is non-empty and trimmed, with no commas, and a non-empty input's list is exactly those items |
| Forms.ParseLink | app/admin/components/InsertProjectModal.tsx:46 | empty text becomes null; any other text is kept exactly, untrimmed |
| Forms.ListText | app/admin/components/EditProjectModal.tsx:36-37 | a null or empty list shows as the empty string, and any other list shows as text starting with its first item |
| Forms.LinkText | app/admin/components/EditProjectModal.tsx:35 | a stored link is shown as is, and null is shown as the empty string |
| Forms.FormDraft | app/admin/components/InsertProjectModal.tsx:43-53 | the payload object takes the name and description verbatim, the id only when the edit modal supplies one, no creation time, and sends every list and link column, parsed, as a value or `null` |
| Forms.FormPayload | app/admin/components/InsertProjectModal.tsx:43-53 | the payload carries the name and description verbatim, the id only when the edit modal supplies one, and never a creation time |
| Forms.CleanPiecesAppend | app/admin/components/InsertProjectModal.tsx:48 | trim-and-filter distributes over concatenation, so items keep their relative order |
| Forms.ItemsAtComma | app/admin/components/InsertProjectModal.tsx:48 | the items of `a + "," + b` are the items of `a` followed by those of `b` |
| Forms.ItemsOfCommaFree | app/admin/components/InsertProjectModal.tsx:48 | comma-free text yields nothing if blank, otherwise its trimmed self |
| Forms.BlankIsCommaFree | app/admin/components/InsertProjectModal.tsx:48 | whitespace-only text contains no comma |
| Forms.CutAtComma | app/admin/components/InsertProjectModal.tsx:48 | text made only of commas and whitespace, cut at any of its commas, leaves only commas and whitespace on both sides |
| Forms.SeparatorsOnlyHaveNoItems | app/admin/components/InsertProjectModal.tsx:47-49 | text made only of commas and whitespace yields no items |
| Forms.SeparatorsOnlyGiveEmptyList | app/admin/components/InsertProjectModal.tsx:47-49 | non-empty text made only of commas and whitespace gives an empty list, not null |
| Forms.ItemsOfPaddedItem | app/admin/components/EditProjectModal.tsx:69 | a clean item behind whitespace parses to exactly that item |
| Forms.JoinUnfold | app/admin/components/EditProjectModal.tsx:36 | `join(", ")` is the first item, a comma, then a space before the join of the rest |
| Forms.ItemsOfJoin | app/admin/components/EditProjectModal.tsx:68-70 | parsing the `", "`-join of clean items returns the items, in order |
| Forms.ItemsOfJoinStep | app/admin/components/EditProjectModal.tsx:68-70 | if the tail of a `", "`-join parses back to its items, so does the whole join behind blank text |
| Forms.ListRoundTrip | app/admin/components/EditProjectModal.tsx:36-37 | showing a list and submitting it unedited reproduces a non-empty list of clean items, and turns an empty list or null into null |
| Forms.LinkRoundTrip | app/admin/components/EditProjectModal.tsx:35 | showing a link and submitting it unedited: null stays null, a non-empty link is unchanged, and an empty link becomes null |
| Forms.FormPayloadValidates | app/admin/components/EditProjectModal.tsx:63-74 | every form payload (with a UUID id, if any) passes the insert schema and validates to exactly the draft the form describes, so the field-errors reply never arises from the modals |
| InsertModal.Change | app/admin/components/InsertProjectModal.tsx:26-30 | a field change sets that input, keeps the others, and clears the error |
| InsertModal.Close | app/admin/components/InsertProjectModal.tsx:32-36 | closing empties the form, clears the error, and fires `onClose` |
| InsertModal.Submit | app/admin/components/InsertProjectModal.tsx:38-56 | a payload is sent iff name and description are non-empty, and it is the form's payload with no id |
| InsertModal.Finish | app/admin/components/InsertProjectModal.tsx:58-69 | a failure shows the string error or `Invalid data format` and keeps the form; success resets the modal and fires `onClose`, then `onSuccess` |
| EditModal.FormOf | app/admin/components/EditProjectModal.tsx:32-38 | the form copies the name and description, shows the link or `""`, and shows each list joined with `", "` or `""` |
| EditModal.Open | app/admin/components/EditProjectModal.tsx:30-42 | opening with a project fills the form, clears the error and closes the confirmation; otherwise nothing changes |
| EditModal.Change | app/admin/components/EditProjectModal.tsx:44-48 | a field change sets that input, keeps the others, clears the error and keeps the confirmation flag |
| EditModal.SetConfirming | app/admin/components/EditProjectModal.tsx:211 | the delete buttons toggle only the confirmation flag |
| EditModal.Close | app/admin/components/EditProjectModal.tsx:50-55 | closing empties the form, clears the error and the confirmation flag, and fires `onClose` |
| EditModal.CloseWithSuccess | app/admin/components/EditProjectModal.tsx:84-85 | after success the modal is reset, then `onClose` fires, then `onSuccess` if given |
| EditModal.Submit | app/admin/components/EditProjectModal.tsx:57-74 | a payload is sent iff there is a project and the required inputs are filled, and it carries the project's id |
| EditModal.FinishUpdate | app/admin/components/EditProjectModal.tsx:79-90 | a failure shows the string error or `Invalid data format` and keeps the form; success closes and fires the callbacks |
| EditModal.DeleteRequest | app/admin/components/EditProjectModal.tsx:93-99 | a delete is sent iff there is a project, and it carries that project's id |
| EditModal.FinishDelete | app/admin/components/EditProjectModal.tsx:101-112 | an undefined or non-failure reply closes the modal and fires the callbacks; a failure shows the string error or `Failed to delete project` and closes the confirmation |
| Scenarios.InsertThroughModal | app/admin/components/InsertProjectModal.tsx:43-64 | an admin submit adds exactly the row the form describes (the fresh UUID in canonical text, now, parsed lists and link), then resets the modal and fires both callbacks |
| Scenarios.DeniedInsertThroughModal | app/admin/components/InsertProjectModal.tsx:58-61 | a caller who fails the gate sees the not-authorised message, keeps the form, and the table is unchanged |
| Scenarios.EmptyNameReachesTable | app/db/schema.ts:7-8 | the server stores an empty name when both emails are absent; only the modal's required inputs block an empty submit |
| Scenarios.UpdateOwnRowOnly | app/admin/action.ts:50 | with a unique key, an update that changes nothing on its own row changes nothing in the table |
| Scenarios.EditWithoutChangesKeepsTable | app/admin/components/EditProjectModal.tsx:31-85 | opening a project with reproducible columns and saving without edits succeeds, leaves the table identical, and resets the modal |
| Scenarios.SaveUnchangedRow | app/admin/components/EditProjectModal.tsx:32-74 | an editable project's form, sent back unchanged, validates to a draft that overwrites the project with itself |
| Scenarios.EditWithoutChangesNullsEmptyList | app/admin/components/EditProjectModal.tsx:37 | saving without edits turns a stored empty list into null |
| Scenarios.DeleteThroughModal | app/admin/components/EditProjectModal.tsx:93-108 | an admin delete removes exactly the project's row, keeps all others, and closes the modal with both callbacks |
| Scenarios.DeniedDeleteThroughModal | app/admin/components/EditProjectModal.tsx:101-104 | a caller who fails the gate sees the message, the confirmation closes, the form is kept, and the table is unchanged |

## Left out

- Rendering is not modelled: JSX, styling, the `loading` flag and the buttons it disables, and the skeleton cards. None of these has behaviour beyond display.
- The public pages, the login and error pages, and the next-auth route are not modelled. They are presentation over `GetProjects`, or configuration.
- Google sign-in and next-auth are not modelled. The session is an input, and a failure of `getServerSession` itself is not modelled; only database failures are, through the `fault` parameter.
- Drizzle, Postgres and the clock are abstract: the table is a sequence of rows, the generated UUID is the `freshId` parameter, and `now()` is the `now` parameter (a natural number with no time zone).
- UUID syntax is narrower than Postgres's. Both the schema's UUID check and Postgres's UUID parsing are modelled by one `8-4-4-4-12` hexadecimal form, in either letter case. Postgres also accepts braces or missing hyphens, and those spellings are not modelled.
- Zod's error formatting is reduced to the list of failing columns. Unknown payload keys, which zod strips, are not part of the payload type.
- JavaScript numbers are integers in the payload value type. NaN and -0 are falsy and are not strings, so `NumValue(0)` stands for them. Fractions behave like non-zero integers.
- Concurrent actions are not modelled; each action is one atomic step.
- Postgres refusals other than the two modelled errors are not decided by the inputs. For example, Postgres rejects text containing the character U+0000 in a `text` or `text[]` column. In the model such a refusal appears only when the caller passes it as `fault`. With `fault == None`, the insert and update laws accept any string in those columns.
- Actions.DuplicateKey: this is Postgres's own wording. What `(err as Error).message` carries depends on the database driver and the drizzle version, and no driver is part of this model, so the text is representative. The same holds for `Actions.InvalidUuid`.
- Forms.Submittable: the `type="url"` browser check on the demo link input is not modelled. So `Forms.Submittable`, `InsertModal.Submit` and `EditModal.Submit` let a form through that the browser would stop for a malformed link.
- Actions.DeleteWhere: the function's own contract states only that the key is gone and the table does not grow. `DeleteWhereKeeps` states membership and multiset inclusion. That the surviving rows keep their relative order holds by construction but is not stated.
- Actions.SortNewestFirst: Postgres leaves the order of rows with equal `createdAt` unspecified. The contract states only a newest-first permutation, and the concrete stable order is one admissible choice.

=== FILE: action_laws.dfy ===
/** What the server actions promise: guard order, frame conditions, error conversion,
    and that the table keeps its primary-key invariant. */
module ActionLaws {
  import opened Wrappers
  import opened Schema
  import opened Actions

  /** A caller who fails the gate gets the not-authorised message from every mutating action,
      and the table is untouched. */
  lemma DeniedChangesNothing(t: Table, session: Option<Session>, adminEmail: Option<string>,
                             payload: RawPayload, id: string, freshId: string, now: nat, fault: Option<string>)
    requires !Authorised(session, adminEmail)
    ensures InsertProjects(t, session, adminEmail, payload, freshId, now, fault) == Outcome(Failure(Message(NotAuthorised)), t)
    ensures UpdateProjects(t, session, adminEmail, payload, fault) == Outcome(Failure(Message(NotAuthorised)), t)
    ensures DeleteProjects(t, session, adminEmail, id, fault) == Outcome(Some(Failure(Message(NotAuthorised))), t)
  {
  }

  /** Exactly when Insert succeeds: authorised, valid payload, the database answers, and the
      row's id (supplied or fresh) is not taken. Every other call changes nothing, and an
      invalid payload is answered with the failing columns. */
  lemma InsertOutcomes(t: Table, session: Option<Session>, adminEmail: Option<string>,
                       payload: RawPayload, freshId: string, now: nat, fault: Option<string>)
    ensures var r := InsertProjects(t, session, adminEmail, payload, freshId, now, fault);
      && (r.reply.Success? <==>
            && Authorised(session, adminEmail)
            && Validate(payload).Valid?
            && fault.None?
            && !HasKey(t, NewRow(Validate(payload).data, freshId, now).id))
      && (Authorised(session, adminEmail) && Validate(payload).Invalid? ==>
            r == Outcome(Failure(FieldErrors(BadColumns(payload))), t))
      && (Authorised(session, adminEmail) && Validate(payload).Valid? && fault.Some? ==>
            r == Outcome(Failure(Message(fault.value)), t))
  {
  }

  /** A successful Insert adds exactly one row, whose columns are the validated payload's
      (defaults for what it omits), and replies with the payload itself: the reply carries an
      id only if the client supplied one. */
  lemma InsertAddsOneRow(t: Table, session: Option<Session>, adminEmail: Option<string>,
                         payload: RawPayload, freshId: string, now: nat)
    requires InsertProjects(t, session, adminEmail, payload, freshId, now, None).reply.Success?
    ensures var r := InsertProjects(t, session, adminEmail, payload, freshId, now, None);
      var d := r.reply.data;
      && Encode(d) == payload
      && (d.id.None? <==> payload.id.Missing?)
      && |r.table| == |t| + 1
      && multiset(r.table) == multiset(t) + multiset{r.table[|t|]}
      && r.table[..|t|] == t
      && var row := r.table[|t|];
         && row.id == CanonUuid(if payload.id.Missing? then freshId else d.id.value)
         && !HasKey(t, row.id)
         && row.name == d.name && row.description == d.description
         && row.githubLinks == d.githubLinks.ToOption()
         && row.demoLink == d.demoLink.ToOption()
         && row.tags == d.tags.ToOption()
         && row.createdAt == (if payload.createdAt.Missing? then now else d.createdAt.value)
  {
    var r := InsertProjects(t, session, adminEmail, payload, freshId, now, None);
    ValidIsWellFormed(payload);
    assert Encode(r.reply.data) == payload;
    assert r.table[..|t|] == t;
  }

  /** Update's guards, in order: the gate, then a truthy id, then validation; the first that
      fails decides the reply, and the table is untouched. */
  lemma UpdateGuardOrder(t: Table, session: Option<Session>, adminEmail: Option<string>,
                         payload: RawPayload, fault: Option<string>)
    ensures var r := UpdateProjects(t, session, adminEmail, payload, fault);
      && (!Authorised(session, adminEmail) ==> r == Outcome(Failure(Message(NotAuthorised)), t))
      && (Authorised(session, adminEmail) && !Truthy(payload.id) ==>
            r == Outcome(Failure(Message(MissingUpdateId)), t))
      && (Authorised(session, adminEmail) && Truthy(payload.id) && Validate(payload).Invalid? ==>
            r == Outcome(Failure(FieldErrors(BadColumns(payload))), t))
      && (Authorised(session, adminEmail) && Truthy(payload.id) && Validate(payload).Valid? && fault.Some? ==>
            r == Outcome(Failure(Message(fault.value)), t))
      && (r.reply.Success? <==>
            Authorised(session, adminEmail) && Truthy(payload.id) && Validate(payload).Valid? && fault.None?)
  {
  }

  /** A successful Update keeps every row's id and creation time and the row order; rows with
      another UUID are untouched; rows with the payload's UUID (in whatever letter case it was
      sent) get exactly the five mutable columns from the payload (an omitted nullable column
      keeps its value, null clears it). */
  lemma UpdateFrame(t: Table, session: Option<Session>, adminEmail: Option<string>, payload: RawPayload)
    requires UpdateProjects(t, session, adminEmail, payload, None).reply.Success?
    ensures var r := UpdateProjects(t, session, adminEmail, payload, None);
      var d := r.reply.data;
      && payload.id == Given(StrValue(d.id.value))
      && |r.table| == |t|
      && forall i :: 0 <= i < |t| ==>
           && r.table[i].id == t[i].id
           && r.table[i].createdAt == t[i].createdAt
           && (t[i].id != CanonUuid(d.id.value) ==> r.table[i] == t[i])
           && (t[i].id == CanonUuid(d.id.value) ==>
                 && r.table[i].name == d.name
                 && r.table[i].description == d.description
                 && r.table[i].demoLink == Assign(t[i].demoLink, d.demoLink)
                 && r.table[i].githubLinks == Assign(t[i].githubLinks, d.githubLinks)
                 && r.table[i].tags == Assign(t[i].tags, d.tags))
  {
  }

  /** Updating a key no row has changes nothing. */
  lemma UpdateMissingKey(t: Table, key: string, d: Draft)
    requires !HasKey(t, key)
    ensures UpdateWhere(t, key, d) == t
  {
  }

  /** Update with an id that matches no row still replies with success and changes nothing. */
  lemma UpdateUnknownIdSucceeds(t: Table, session: Option<Session>, adminEmail: Option<string>, payload: RawPayload)
    requires Authorised(session, adminEmail) && Truthy(payload.id) && Validate(payload).Valid?
    requires !HasKey(t, CanonUuid(Validate(payload).data.id.value))
    ensures UpdateProjects(t, session, adminEmail, payload, None) == Outcome(Success(Validate(payload).data), t)
  {
    UpdateMissingKey(t, CanonUuid(Validate(payload).data.id.value), Validate(payload).data);
  }

  /** Deleting a key no row has changes nothing. */
  lemma {:induction false} DeleteMissingKey(t: Table, key: string)
    requires !HasKey(t, key)
    ensures DeleteWhere(t, key) == t
    decreases |t|
  {
    if t != [] {
      var tail := t[1..];
      assert !HasKey(tail, key) by {
        forall i | 0 <= i < |tail| ensures tail[i].id != key {
          assert tail[i] == t[i + 1];
        }
      }
      assert t == [t[0]] + tail;
      DeleteMissingKey(tail, key);
    }
  }

  /** Delete's guards and effect: an empty id is refused with the missing-id message; otherwise
      (authorised, the database answering, a UUID) the rows with that UUID go, whatever the case
      of its letters, every other row stays, the reply is `undefined`, and a missing id is a
      silent no-op. */
  lemma DeleteOutcomes(t: Table, session: Option<Session>, adminEmail: Option<string>, id: string)
    ensures Authorised(session, adminEmail) && id == [] ==>
      DeleteProjects(t, session, adminEmail, id, None) == Outcome(Some(Failure(Message(MissingDeleteId))), t)
    ensures Authorised(session, adminEmail) && IsUuid(id) ==>
      var r := DeleteProjects(t, session, adminEmail, id, None);
      && r.reply == None
      && (forall i :: 0 <= i < |r.table| ==> r.table[i].id != CanonUuid(id))
      && (forall i :: 0 <= i < |t| && t[i].id != CanonUuid(id) ==> t[i] in r.table)
      && multiset(r.table) <= multiset(t)
      && (!HasKey(t, CanonUuid(id)) ==> r.table == t)
  {
    var key := CanonUuid(id);
    DeleteWhereKeeps(t, key);
    if Authorised(session, adminEmail) && IsUuid(id) && !HasKey(t, key) {
      DeleteMissingKey(t, key);
    }
  }

  /** A database failure is returned as `{ success: false, error: message }`, never propagated,
      and leaves the table untouched, whichever action hit it. */
  lemma FaultsBecomeMessages(t: Table, session: Option<Session>, adminEmail: Option<string>,
                             payload: RawPayload, id: string, freshId: string, now: nat, message: string)
    requires Authorised(session, adminEmail)
    ensures Validate(payload).Valid? ==>
      InsertProjects(t, session, adminEmail, payload, freshId, now, Some(message)) == Outcome(Failure(Message(message)), t)
    ensures Truthy(payload.id) && Validate(payload).Valid? ==>
      UpdateProjects(t, session, adminEmail, payload, Some(message)) == Outcome(Failure(Message(message)), t)
    ensures id != [] ==>
      DeleteProjects(t, session, adminEmail, id, Some(message)) == Outcome(Some(Failure(Message(message))), t)
    ensures GetProjects(t, Some(message)) == Failure(Message(message))
  {
  }

  /** Insert keeps the primary key unique and every id a canonical UUID, given a UUID for the
      fresh id: a supplied id that names a stored UUID in other letter case is refused. */
  lemma InsertKeepsTableWellFormed(t: Table, session: Option<Session>, adminEmail: Option<string>,
                                   payload: RawPayload, freshId: string, now: nat, fault: Option<string>)
    requires WellFormedTable(t) && IsUuid(freshId)
    ensures WellFormedTable(InsertProjects(t, session, adminEmail, payload, freshId, now, fault).table)
  {
    var r := InsertProjects(t, session, adminEmail, payload, freshId, now, fault);
    if r.reply.Success? {
      ValidIsWellFormed(payload);
      var row := r.table[|t|];
      CanonUuidIsCanon(if r.reply.data.id.Some? then r.reply.data.id.value else freshId);
      assert !HasKey(t, row.id);
      forall i, j | 0 <= i < j < |r.table| ensures r.table[i].id != r.table[j].id {
        if j == |t| {
          assert r.table[i] == t[i];
        } else {
          assert r.table[i] == t[i] && r.table[j] == t[j];
        }
      }
    }
  }

  /** Update never touches ids, so the table stays well formed. */
  lemma UpdateKeepsTableWellFormed(t: Table, session: Option<Session>, adminEmail: Option<string>,
                                   payload: RawPayload, fault: Option<string>)
    requires WellFormedTable(t)
    ensures WellFormedTable(UpdateProjects(t, session, adminEmail, payload, fault).table)
  {
  }

  /** The tail of a well-formed table is well formed, lacks the head's id, and has only ids of the table. */
  lemma TailOfWellFormed(t: Table)
    requires WellFormedTable(t) && t != []
    ensures WellFormedTable(t[1..])
    ensures !HasKey(t[1..], t[0].id)
    ensures forall x :: HasKey(t[1..], x) ==> HasKey(t, x)
  {
    var tail := t[1..];
    forall i | 0 <= i < |tail| ensures IsCanonUuid(tail[i].id) && tail[i].id != t[0].id {
      assert tail[i] == t[i + 1];
    }
    forall i, j | 0 <= i < j < |tail| ensures tail[i].id != tail[j].id {
      assert tail[i] == t[i + 1] && tail[j] == t[j + 1];
    }
    forall x | HasKey(tail, x) ensures HasKey(t, x) {
      var i :| 0 <= i < |tail| && tail[i].id == x;
      assert t[i + 1].id == x;
    }
  }

  /** A row with a fresh canonical UUID in front of a well-formed table keeps it well formed. */
  lemma ConsWellFormed(row: Project, rest: Table)
    requires WellFormedTable(rest) && IsCanonUuid(row.id) && !HasKey(rest, row.id)
    ensures WellFormedTable([row] + rest)
  {
    var r := [row] + rest;
    forall i | 0 <= i < |r| ensures IsCanonUuid(r[i].id) {
      if i > 0 { assert r[i] == rest[i - 1]; }
    }
    forall i, j | 0 <= i < j < |r| ensures r[i].id != r[j].id {
      assert r[j] == rest[j - 1];
      if i > 0 { assert r[i] == rest[i - 1]; }
    }
  }

  /** Deleting keeps a subsequence of the rows, so the table stays well formed. */
  lemma {:induction false} DeleteWhereKeepsWellFormed(t: Table, key: string)
    requires WellFormedTable(t)
    ensures WellFormedTable(DeleteWhere(t, key))
    ensures forall x :: HasKey(DeleteWhere(t, key), x) ==> HasKey(t, x)
    decreases |t|
  {
    if t != [] {
      TailOfWellFormed(t);
      DeleteWhereKeepsWellFormed(t[1..], key);
      var rest := DeleteWhere(t[1..], key);
      if t[0].id != key {
        assert DeleteWhere(t, key) == [t[0]] + rest;
        ConsWellFormed(t[0], rest);
        forall x | HasKey([t[0]] + rest, x) ensures HasKey(t, x) {
          var i :| 0 <= i < |[t[0]] + rest| && ([t[0]] + rest)[i].id == x;
          if i > 0 { assert ([t[0]] + rest)[i] == rest[i - 1]; assert HasKey(rest, x); }
        }
      }
    }
  }

  /** Delete keeps the table well formed. */
  lemma DeleteKeepsTableWellFormed(t: Table, session: Option<Session>, adminEmail: Option<string>,
                                   id: string, fault: Option<string>)
    requires WellFormedTable(t)
    ensures WellFormedTable(DeleteProjects(t, session, adminEmail, id, fault).table)
  {
    DeleteWhereKeepsWellFormed(t, CanonUuid(id));
  }

  /** A stored row is found through any spelling of its UUID, whatever the case of its letters:
      inserting a draft with that id hits the primary key, and (under a unique key) deleting with
      it removes exactly that row. */
  lemma CaseVariantFindsStoredRow(t: Table, k: int, s: string, d: Draft, session: Option<Session>,
                                  adminEmail: Option<string>, freshId: string, now: nat)
    requires 0 <= k < |t| && IsUuid(s) && t[k].id == CanonUuid(s)
    requires d.id == Some(s)
    requires Authorised(session, adminEmail)
    ensures InsertProjects(t, session, adminEmail, Encode(d), freshId, now, None)
      == Outcome(Failure(Message(DuplicateKey)), t)
    ensures WellFormedTable(t) ==>
      var r := DeleteProjects(t, session, adminEmail, s, None);
      && r.reply.None?
      && t[k] !in r.table
      && |r.table| == |t| - 1
  {
    ValidateEncode(d);
    assert t[k].id == NewRow(d, freshId, now).id;
    if WellFormedTable(t) {
      DeleteOneRow(t, k);
    }
  }

  /** In a well-formed table no two rows hold the same UUID, even compared without regard to the
      case of its letters. */
  lemma KeysDistinctAsUuids(t: Table)
    requires WellFormedTable(t)
    ensures forall i, j :: 0 <= i < j < |t| ==> CanonUuid(t[i].id) != CanonUuid(t[j].id)
  {
    forall i, j | 0 <= i < j < |t| ensures CanonUuid(t[i].id) != CanonUuid(t[j].id) {
      CanonOfCanon(t[i].id);
      CanonOfCanon(t[j].id);
    }
  }

  /** Update and Delete find a row by its UUID: two spellings of one UUID that differ only in
      letter case change the table in the same way. */
  lemma KeysMatchInAnyCase(t: Table, session: Option<Session>, adminEmail: Option<string>,
                           payload: RawPayload, a: string, b: string, fault: Option<string>)
    requires IsUuid(a) && IsUuid(b) && CanonUuid(a) == CanonUuid(b)
    ensures DeleteProjects(t, session, adminEmail, a, fault) == DeleteProjects(t, session, adminEmail, b, fault)
    ensures payload.id == Given(StrValue(a)) ==>
      UpdateProjects(t, session, adminEmail, payload, fault).table
        == UpdateProjects(t, session, adminEmail, payload.(id := Given(StrValue(b))), fault).table
  {
    if payload.id == Given(StrValue(a)) {
      UpdateMatchesInAnyCase(t, session, adminEmail, payload, a, b, fault);
    }
  }

  /** The Update half of `KeysMatchInAnyCase`. */
  lemma UpdateMatchesInAnyCase(t: Table, session: Option<Session>, adminEmail: Option<string>,
                               payload: RawPayload, a: string, b: string, fault: Option<string>)
    requires IsUuid(a) && IsUuid(b) && CanonUuid(a) == CanonUuid(b)
    requires payload.id == Given(StrValue(a))
    ensures UpdateProjects(t, session, adminEmail, payload, fault).table
      == UpdateProjects(t, session, adminEmail, payload.(id := Given(StrValue(b))), fault).table
  {
    var other := payload.(id := Given(StrValue(b)));
    assert DecodeId(payload.id) == Some(Some(a)) && DecodeId(other.id) == Some(Some(b));
    if Validate(payload).Valid? {
      var d, e := Validate(payload).data, Validate(other).data;
      assert d.id == Some(a) && e.id == Some(b);
      forall row: Project ensures Overwrite(row, d) == Overwrite(row, e) {
      }
    }
  }

  /** With a unique primary key, deleting a present id removes exactly one row. */
  lemma {:induction false} DeleteOneRow(t: Table, k: int)
    requires WellFormedTable(t) && 0 <= k < |t|
    ensures |DeleteWhere(t, t[k].id)| == |t| - 1
    decreases |t|
  {
    TailOfWellFormed(t);
    if k == 0 {
      DeleteMissingKey(t[1..], t[0].id);
    } else {
      assert t[1..][k - 1] == t[k];
      DeleteOneRow(t[1..], k - 1);
    }
  }

  /** After a successful Insert, listing the projects includes the new row. */
  lemma InsertedRowIsListed(t: Table, session: Option<Session>, adminEmail: Option<string>,
                            payload: RawPayload, freshId: string, now: nat)
    requires InsertProjects(t, session, adminEmail, payload, freshId, now, None).reply.Success?
    ensures var r := InsertProjects(t, session, adminEmail, payload, freshId, now, None);
      var listed := GetProjects(r.table, None);
      && listed.Success?
      && NewRow(r.reply.data, freshId, now) in listed.data
      && |listed.data| == |t| + 1
  {
    var r := InsertProjects(t, session, adminEmail, payload, freshId, now, None);
    var row := NewRow(r.reply.data, freshId, now);
    var listed := GetProjects(r.table, None).data;
    assert row in multiset(r.table);
    assert row in multiset(listed);
  }
}

=== FILE: actions.dfy ===
/** The server actions of `app/admin/action.ts`: `InsertProjects`, `UpdateProjects`,
    `DeleteProjects` and `GetProjects`.

    Each action is one atomic step from a table to a reply and a new table. The session,
    the configured administrator email, fresh ids, the clock and database failures are
    parameters: `fault == Some(m)` means the database call threw an error with message `m`. */
module Actions {
  import opened Wrappers
  import opened Schema

  /** The user record of a next-auth session; its email may be missing or null. */
  datatype User = User(email: Nullable<string>)

  /** A next-auth session, possibly without a user. */
  datatype Session = Session(user: Option<User>)

  /** What a failed action carries: a plain message, or zod's formatted field errors
      (opaque to the client; here, the columns that failed). */
  datatype ErrorValue = Message(text: string) | FieldErrors(columns: seq<Column>)

  /** `{ success: true, data }` or `{ success: false, error }`. */
  datatype Response<+T> = Success(data: T) | Failure(error: ErrorValue)

  /** An action's reply together with the table after it. */
  datatype Outcome<+T> = Outcome(reply: T, table: Table)

  /** "You are not authorised". */
  const NotAuthorised: string := "คุณไม่มีสิทธิ"

  /** "The id of the project to edit was not found". */
  const MissingUpdateId: string := "ไม่พบ ID ของโปรเจกต์ที่ต้องการแก้ไข"

  /** "The id of the project to delete was not found". */
  const MissingDeleteId: string := "ไม่พบ ID ของโปรเจกต์ที่ต้องการลบ"

  /** Postgres's message when an insert repeats an existing primary key. */
  const DuplicateKey: string := "duplicate key value violates unique constraint \"projects_pkey\""

  /** Postgres's message when a string compared with the uuid column is not a UUID; the offending
      text stands quoted at its end, so it can be read back from the message. */
  function InvalidUuid(id: string): (r: string)
    ensures |r| >= |id| + 2 && r[|r| - 1] == '"' && r[|r| - |id| - 2] == '"'
    ensures r[|r| - |id| - 1 .. |r| - 1] == id
  {
    "invalid input syntax for type uuid: \"" + id + "\""
  }

  /** `session?.user?.email`: undefined without a session or a user, otherwise the email as stored
      (which may be null). */
  function EmailClaim(session: Option<Session>): (r: Nullable<string>)
    ensures session.None? ==> r.Absent?
    ensures session.Some? && session.value.user.None? ==> r.Absent?
    ensures session.Some? && session.value.user.Some? ==> r == session.value.user.value.email
    ensures r.Absent? <==> session.None? || session.value.user.None? || session.value.user.value.email.Absent?
  {
    match session
    case None => Absent
    case Some(Session(None)) => Absent
    case Some(Session(Some(u))) => u.email
  }

  /** The gate `session?.user?.email !== process.env.ADMIN_EMAIL`, negated: strict equality of
      two optional values. An unset `ADMIN_EMAIL` is `undefined`. */
  predicate Authorised(session: Option<Session>, adminEmail: Option<string>) {
    EmailClaim(session) == Lift(adminEmail)
  }

  /** Who passes the gate: the administrator's email when one is configured; when none is
      configured, exactly the callers without an email claim (no session, no user, or an
      undefined email). A null email never passes, since `null !== undefined`. */
  lemma AuthorisedCases(session: Option<Session>, adminEmail: Option<string>)
    ensures adminEmail.Some? ==>
      (Authorised(session, adminEmail) <==> EmailClaim(session) == Present(adminEmail.value))
    ensures adminEmail.None? ==>
      (Authorised(session, adminEmail) <==> EmailClaim(session).Absent?)
    ensures EmailClaim(session).Null? ==> !Authorised(session, adminEmail)
    ensures session.None? ==> (Authorised(session, adminEmail) <==> adminEmail.None?)
  {
  }

  /** The row an insert creates from a draft: the table's defaults fill in a missing id
      (a fresh random UUID) and a missing creation time (now); omitted and null columns are NULL.
      The id is stored as the UUID's canonical text, whatever the case of the letters sent. */
  function NewRow(d: Draft, freshId: string, now: nat): (row: Project)
    ensures row.id == CanonUuid(if d.id.Some? then d.id.value else freshId)
    ensures row.createdAt == (if d.createdAt.Some? then d.createdAt.value else now)
    ensures row.name == d.name && row.description == d.description
    ensures row.githubLinks == d.githubLinks.ToOption()
    ensures row.demoLink == d.demoLink.ToOption()
    ensures row.tags == d.tags.ToOption()
  {
    Project(CanonUuid(d.id.GetOr(freshId)), d.name, d.description, d.githubLinks.ToOption(),
            d.demoLink.ToOption(), d.tags.ToOption(), d.createdAt.GetOr(now))
  }

  /** `InsertProjects(payload)`: authorise, validate, insert, reply with the validated payload.
      `freshId` is the UUID the database would generate and `now` the current time. */
  function InsertProjects(t: Table, session: Option<Session>, adminEmail: Option<string>,
                          payload: RawPayload, freshId: string, now: nat, fault: Option<string>)
    : (r: Outcome<Response<Draft>>)
    ensures r.reply.Success? ==>
      && Validate(payload) == Valid(r.reply.data)
      && r.table == t + [NewRow(r.reply.data, freshId, now)]
    ensures r.reply.Failure? ==> r.table == t
  {
    if !Authorised(session, adminEmail) then Outcome(Failure(Message(NotAuthorised)), t)
    else match Validate(payload)
      case Invalid(columns) => Outcome(Failure(FieldErrors(columns)), t)
      case Valid(d) =>
        if fault.Some? then Outcome(Failure(Message(fault.value)), t)
        else
          var row := NewRow(d, freshId, now);
          if HasKey(t, row.id) then Outcome(Failure(Message(DuplicateKey)), t)
          else Outcome(Success(d), t + [row])
  }

  /** The value `.set(...)` writes to a nullable column: an omitted field (undefined) leaves the
      column as it was, null clears it, a value replaces it. */
  function Assign<T>(current: Option<T>, update: Nullable<T>): (r: Option<T>)
    ensures update.Absent? ==> r == current
    ensures !update.Absent? ==> r == update.ToOption()
  {
    match update
    case Absent => current
    case Null => None
    case Present(v) => Some(v)
  }

  /** One row after `.set({ name, description, demoLink, githubLinks, tags })`. */
  function Overwrite(row: Project, d: Draft): (r: Project)
    ensures r.id == row.id && r.createdAt == row.createdAt
    ensures r.name == d.name && r.description == d.description
    ensures d.demoLink.Absent? ==> r.demoLink == row.demoLink
    ensures !d.demoLink.Absent? ==> r.demoLink == d.demoLink.ToOption()
    ensures d.githubLinks.Absent? ==> r.githubLinks == row.githubLinks
    ensures !d.githubLinks.Absent? ==> r.githubLinks == d.githubLinks.ToOption()
    ensures d.tags.Absent? ==> r.tags == row.tags
    ensures !d.tags.Absent? ==> r.tags == d.tags.ToOption()
  {
    row.(name := d.name, description := d.description,
         demoLink := Assign(row.demoLink, d.demoLink),
         githubLinks := Assign(row.githubLinks, d.githubLinks),
         tags := Assign(row.tags, d.tags))
  }

  /** `UPDATE projects SET ... WHERE id = key`, row by row. The actions pass the key's canonical
      text, so on a well-formed table matching the text is matching the UUID. */
  function UpdateWhere(t: Table, key: string, d: Draft): (r: Table)
    ensures |r| == |t|
    ensures forall i :: 0 <= i < |t| ==> r[i] == if t[i].id == key then Overwrite(t[i], d) else t[i]
  {
    seq(|t|, i requires 0 <= i < |t| => if t[i].id == key then Overwrite(t[i], d) else t[i])
  }

  /** `UpdateProjects(payload)`: authorise, require a truthy `payload.id`, validate, update the
      rows with that UUID, in any letter case, reply with the validated payload (also when no row
      matched). */
  function UpdateProjects(t: Table, session: Option<Session>, adminEmail: Option<string>,
                          payload: RawPayload, fault: Option<string>)
    : (r: Outcome<Response<Draft>>)
    ensures r.reply.Success? ==>
      && Validate(payload) == Valid(r.reply.data)
      && r.reply.data.id.Some?
      && r.table == UpdateWhere(t, CanonUuid(r.reply.data.id.value), r.reply.data)
    ensures r.reply.Failure? ==> r.table == t
  {
    if !Authorised(session, adminEmail) then Outcome(Failure(Message(NotAuthorised)), t)
    else if !Truthy(payload.id) then Outcome(Failure(Message(MissingUpdateId)), t)
    else match Validate(payload)
      case Invalid(columns) => Outcome(Failure(FieldErrors(columns)), t)
      case Valid(d) =>
        if fault.Some? then Outcome(Failure(Message(fault.value)), t)
        else
          assert d.id.Some? by { ValidIsWellFormed(payload); }
          Outcome(Success(d), UpdateWhere(t, CanonUuid(d.id.value), d))
  }

  /** `DELETE FROM projects WHERE id = key`, for the key's canonical text: no row with the key is
      left, and nothing is added (`DeleteWhereKeeps`: every other row stays). */
  function DeleteWhere(t: Table, key: string): (r: Table)
    ensures forall i :: 0 <= i < |r| ==> r[i].id != key
    ensures |r| <= |t|
    decreases |t|
  {
    if t == [] then []
    else
      var rest := DeleteWhere(t[1..], key);
      if t[0].id == key then rest
      else
        var r := [t[0]] + rest;
        assert forall i :: 1 <= i < |r| ==> r[i] == rest[i - 1];
        r
  }

  /** Deleting only removes rows with the key: the rest is a sub-multiset of the table that
      still holds every row with another id. */
  lemma DeleteWhereKeeps(t: Table, key: string)
    ensures multiset(DeleteWhere(t, key)) <= multiset(t)
    ensures forall i :: 0 <= i < |t| && t[i].id != key ==> t[i] in DeleteWhere(t, key)
  {
    DeleteWhereSubMultiset(t, key);
    DeleteWhereKeepsOthers(t, key);
  }

  /** Deleting never adds a row, nor a copy of one. */
  lemma {:induction false} DeleteWhereSubMultiset(t: Table, key: string)
    ensures multiset(DeleteWhere(t, key)) <= multiset(t)
    decreases |t|
  {
    if t != [] {
      DeleteWhereSubMultiset(t[1..], key);
      assert t == [t[0]] + t[1..];
    }
  }

  /** Every row with another id survives the delete. */
  lemma {:induction false} DeleteWhereKeepsOthers(t: Table, key: string)
    ensures forall i :: 0 <= i < |t| && t[i].id != key ==> t[i] in DeleteWhere(t, key)
    decreases |t|
  {
    if t != [] {
      var tail := t[1..];
      DeleteWhereKeepsOthers(tail, key);
      var rest := DeleteWhere(tail, key);
      forall i | 1 <= i < |t| && t[i].id != key ensures t[i] in rest {
        assert t[i] == tail[i - 1];
      }
    }
  }

  /** `DeleteProjects(id)`: authorise, require a non-empty id, delete the rows with that UUID and
      reply with nothing (`undefined`) on success. */
  function DeleteProjects(t: Table, session: Option<Session>, adminEmail: Option<string>,
                          id: string, fault: Option<string>)
    : (r: Outcome<Option<Response<()>>>)
    ensures r.reply.None? <==> (Authorised(session, adminEmail) && id != [] && fault.None? && IsUuid(id))
    ensures r.reply.None? ==> r.table == DeleteWhere(t, CanonUuid(id))
    ensures r.reply.Some? ==> r.reply.value.Failure? && r.table == t
  {
    if !Authorised(session, adminEmail) then Outcome(Some(Failure(Message(NotAuthorised))), t)
    else if id == [] then Outcome(Some(Failure(Message(MissingDeleteId))), t)
    else if fault.Some? then Outcome(Some(Failure(Message(fault.value))), t)
    else if !IsUuid(id) then Outcome(Some(Failure(Message(InvalidUuid(id)))), t)
    else Outcome(None, DeleteWhere(t, CanonUuid(id)))
  }

  /** Newest first: creation times never increase along the sequence. */
  predicate NewestFirst(rows: seq<Project>) {
    forall i, j :: 0 <= i < j < |rows| ==> rows[i].createdAt >= rows[j].createdAt
  }

  /** Places `row` into a newest-first sequence, keeping it newest first. */
  function InsertByDate(row: Project, sorted: seq<Project>): (r: seq<Project>)
    requires NewestFirst(sorted)
    ensures NewestFirst(r)
    ensures multiset(r) == multiset(sorted) + multiset{row}
    ensures |r| == |sorted| + 1
    ensures r[0] == row || (sorted != [] && r[0] == sorted[0])
    decreases |sorted|
  {
    if sorted == [] || row.createdAt >= sorted[0].createdAt then
      ConsNewestFirst(row, sorted);
      [row] + sorted
    else
      var tail := sorted[1..];
      NewestFirstTail(sorted);
      var rest := InsertByDate(row, tail);
      ConsNewestFirst(sorted[0], rest);
      assert sorted == [sorted[0]] + tail;
      [sorted[0]] + rest
  }

  /** Dropping the newest row keeps a sequence newest first, and that row is at least as new as the next. */
  lemma NewestFirstTail(rows: seq<Project>)
    requires NewestFirst(rows) && rows != []
    ensures NewestFirst(rows[1..])
    ensures |rows| > 1 ==> rows[0].createdAt >= rows[1..][0].createdAt
  {
    var tail := rows[1..];
    forall i, j | 0 <= i < j < |tail| ensures tail[i].createdAt >= tail[j].createdAt {
      assert tail[i] == rows[i + 1] && tail[j] == rows[j + 1];
    }
  }

  /** A row at least as new as the head of a newest-first sequence can go in front of it. */
  lemma ConsNewestFirst(row: Project, rows: seq<Project>)
    requires NewestFirst(rows)
    requires rows == [] || row.createdAt >= rows[0].createdAt
    ensures NewestFirst([row] + rows)
  {
    var r := [row] + rows;
    forall i, j | 0 <= i < j < |r| ensures r[i].createdAt >= r[j].createdAt {
      assert r[j] == rows[j - 1];
      if i > 0 {
        assert r[i] == rows[i - 1];
      } else if j > 1 {
        assert rows[0].createdAt >= rows[j - 1].createdAt;
      }
    }
  }

  /** `ORDER BY created_at DESC`: the same rows, newest first. */
  function SortNewestFirst(rows: seq<Project>): (r: seq<Project>)
    ensures NewestFirst(r)
    ensures multiset(r) == multiset(rows)
    ensures |r| == |rows|
    decreases |rows|
  {
    if rows == [] then []
    else
      assert rows == [rows[0]] + rows[1..];
      InsertByDate(rows[0], SortNewestFirst(rows[1..]))
  }

  /** `GetProjects()`: every row, newest first; no authorisation and no change to the table
      (it returns no table). */
  function GetProjects(t: Table, fault: Option<string>): (r: Response<seq<Project>>)
    ensures r.Success? <==> fault.None?
    ensures r.Failure? ==> r.error == Message(fault.value)
    ensures r.Success? ==> NewestFirst(r.data) && multiset(r.data) == multiset(t)
  {
    if fault.Some? then Failure(Message(fault.value)) else Success(SortNewestFirst(t))
  }
}

=== FILE: edit_modal.dfy ===
/** The state machine of `EditProjectModal`: a form filled from a project, an error line, the
    delete-confirmation flag, and the callbacks it fires. */
module EditModal {
  import opened Wrappers
  import opened Schema
  import opened Actions
  import opened Forms

  /** The modal's state: the form, the error shown (`""` shows nothing), and whether the
      delete confirmation dialog is open. */
  datatype State = State(form: Form, error: string, confirmingDelete: bool)

  /** A state together with the callbacks fired, in order, on the way to it. */
  datatype Step = Step(state: State, effects: seq<Effect>)

  /** Fresh and after every close: an empty form, no error, no confirmation dialog. */
  const Initial: State := State(EmptyForm, "", false)

  /** Shown when the server answers an update with zod's field errors. */
  const InvalidDataFormat: string := "Invalid data format"

  /** Shown when a delete fails without a message. */
  const FailedToDelete: string := "Failed to delete project"

  /** The form for a stored project: name and description as they are, the demo link or `""`,
      each list joined with `", "` or `""`. */
  function FormOf(p: Project): (f: Form)
    ensures f.name == p.name && f.description == p.description
    ensures f.demoLink == LinkText(p.demoLink)
    ensures f.githubLinks == ListText(p.githubLinks) && f.tags == ListText(p.tags)
  {
    Form(p.name, p.description, ListText(p.githubLinks), LinkText(p.demoLink), ListText(p.tags))
  }

  /** The effect on `[project, isOpen]`: with a project and the modal open, the form is filled
      from the project, the error cleared and the confirmation dialog closed; otherwise nothing changes. */
  function Open(s: State, project: Option<Project>, isOpen: bool): (r: State)
    ensures project.Some? && isOpen ==> r == State(FormOf(project.value), "", false)
    ensures !(project.Some? && isOpen) ==> r == s
  {
    if project.Some? && isOpen then State(FormOf(project.value), "", false) else s
  }

  /** `handleChange`: the edited input takes the new text and any error is cleared. */
  function Change(s: State, input: Input, value: string): (r: State)
    ensures Get(r.form, input) == value
    ensures forall other :: other != input ==> Get(r.form, other) == Get(s.form, other)
    ensures r.error == "" && r.confirmingDelete == s.confirmingDelete
  {
    s.(form := SetInput(s.form, input, value), error := "")
  }

  /** The "Delete Project" button opens the confirmation dialog; its "Cancel" closes it. */
  function SetConfirming(s: State, open: bool): (r: State)
    ensures r.confirmingDelete == open && r.form == s.form && r.error == s.error
  {
    s.(confirmingDelete := open)
  }

  /** `handleClose`: clear the error, close the confirmation, reset the form, then call `onClose`. */
  function Close(s: State): (r: Step)
    ensures r.state.form == EmptyForm && r.state.error == "" && !r.state.confirmingDelete
    ensures r.effects == [Closed]
  {
    Step(Initial, [Closed])
  }

  /** Closing, then `onSuccess` when one was given. */
  function CloseWithSuccess(s: State, hasOnSuccess: bool): (r: Step)
    ensures r.state == Initial
    ensures r.effects == (if hasOnSuccess then [Closed, Succeeded] else [Closed])
  {
    var closed := Close(s);
    Step(closed.state, closed.effects + if hasOnSuccess then [Succeeded] else [])
  }

  /** `handleSubmit` up to the server call: without a project nothing is sent; otherwise the
      payload carries the project's id and the converted form, if the browser lets it submit. */
  function Submit(s: State, project: Option<Project>): (r: Option<RawPayload>)
    ensures r.Some? <==> project.Some? && Submittable(s.form)
    ensures r.Some? ==> r.value == FormPayload(s.form, Some(project.value.id))
  {
    if project.Some? && Submittable(s.form) then Some(FormPayload(s.form, Some(project.value.id))) else None
  }

  /** `handleSubmit` after `UpdateProjects`: like the insert modal, a failure shows the message or
      the fallback and keeps the form; success closes and then calls `onSuccess`. */
  function FinishUpdate(s: State, reply: Reply<Response<Draft>>, hasOnSuccess: bool): (r: Step)
    ensures reply.Returned? && reply.value.Failure? ==>
      r == Step(s.(error := ShownError(reply.value.error, InvalidDataFormat)), [])
    ensures reply.Threw? ==> r == Step(s.(error := reply.message), [])
    ensures reply.Returned? && reply.value.Success? ==> r == CloseWithSuccess(s, hasOnSuccess)
  {
    match reply
    case Threw(message) => Step(s.(error := message), [])
    case Returned(Failure(e)) => Step(s.(error := ShownError(e, InvalidDataFormat)), [])
    case Returned(Success(_)) => CloseWithSuccess(s, hasOnSuccess)
  }

  /** `handleDelete` up to the server call: the id to delete, when there is a project. */
  function DeleteRequest(project: Option<Project>): (r: Option<string>)
    ensures r.Some? <==> project.Some?
    ensures r.Some? ==> r.value == project.value.id
  {
    match project
    case Some(p) => Some(p.id)
    case None => None
  }

  /** `handleDelete` after `DeleteProjects`. A reply that is not `{ success: false }` (including
      `undefined`) counts as success: close, then `onSuccess`. A failure shows the message or the
      fallback and closes the confirmation dialog, keeping the form; so does a thrown error. */
  function FinishDelete(s: State, reply: Reply<Option<Response<()>>>, hasOnSuccess: bool): (r: Step)
    ensures reply.Returned? && reply.value.Some? && reply.value.value.Failure? ==>
      r == Step(State(s.form, ShownError(reply.value.value.error, FailedToDelete), false), [])
    ensures reply.Threw? ==> r == Step(State(s.form, reply.message, false), [])
    ensures reply.Returned? && (reply.value.None? || reply.value.value.Success?) ==>
      r == CloseWithSuccess(s, hasOnSuccess)
  {
    match reply
    case Threw(message) => Step(State(s.form, message, false), [])
    case Returned(Some(Failure(e))) => Step(State(s.form, ShownError(e, FailedToDelete), false), [])
    case Returned(_) => CloseWithSuccess(s, hasOnSuccess)
  }
}

=== FILE: forms.dfy ===
/** The conversions the two project modals perform between their text form and the
    server payload (`InsertProjectModal.tsx`, `EditProjectModal.tsx`). */
module Forms {
  import opened Wrappers
  import opened Text
  import opened Schema
  import opened Actions

  /** The five text inputs of a project form. */
  datatype Form = Form(name: string, description: string, githubLinks: string, demoLink: string, tags: string)

  /** The form every modal starts from and resets to. */
  const EmptyForm: Form := Form("", "", "", "", "")

  /** The five inputs, by their `name` attribute. */
  datatype Input = NameInput | DescriptionInput | GithubLinksInput | DemoLinkInput | TagsInput

  /** `setFormData(prev => ({ ...prev, [name]: value }))`: one input changes, the others keep their text. */
  function SetInput(f: Form, input: Input, value: string): (r: Form)
    ensures Get(r, input) == value
    ensures forall other :: other != input ==> Get(r, other) == Get(f, other)
  {
    match input
    case NameInput => f.(name := value)
    case DescriptionInput => f.(description := value)
    case GithubLinksInput => f.(githubLinks := value)
    case DemoLinkInput => f.(demoLink := value)
    case TagsInput => f.(tags := value)
  }

  /** The text of one input. */
  function Get(f: Form, input: Input): string {
    match input
    case NameInput => f.name
    case DescriptionInput => f.description
    case GithubLinksInput => f.githubLinks
    case DemoLinkInput => f.demoLink
    case TagsInput => f.tags
  }

  /** A callback a modal fires: `onClose()` or `onSuccess()`. */
  datatype Effect = Closed | Succeeded

  /** What awaiting a server action yields on the client: its return value, or a thrown error. */
  datatype Reply<+T> = Returned(value: T) | Threw(message: string)

  /** `typeof error === 'string' ? error : fallback`: the text a modal shows for a failed reply. */
  function ShownError(e: ErrorValue, fallback: string): (r: string)
    ensures e.Message? ==> r == e.text
    ensures e.FieldErrors? ==> r == fallback
  {
    match e
    case Message(text) => text
    case FieldErrors(_) => fallback
  }

  /** The browser's `required` check on the name and description inputs: a form with either
      empty is never submitted. */
  predicate Submittable(f: Form) {
    f.name != [] && f.description != []
  }

  /** What a parsed list item looks like: non-empty, no whitespace at either end, no comma. */
  predicate IsItem(x: string) {
    x != [] && IsTrimmed(x) && ',' !in x
  }

  /** `.map(s => s.trim()).filter(Boolean)` over the pieces of a split: never more results than
      pieces (`CleanPiecesAreItems`: comma-free pieces give clean items only). */
  function CleanPieces(pieces: seq<string>): (r: seq<string>)
    ensures |r| <= |pieces|
    decreases |pieces|
  {
    if pieces == [] then []
    else
      var t := Trim(pieces[0]);
      var rest := CleanPieces(pieces[1..]);
      if t == [] then rest else [t] + rest
  }

  /** A comma-free piece, trimmed, is an item unless it was blank. */
  lemma TrimmedPieceIsItem(piece: string)
    requires ',' !in piece
    ensures Trim(piece) == [] || IsItem(Trim(piece))
  {
    TrimKeepsOut(piece, ',');
  }

  /** Trimming and filtering comma-free pieces yields clean items only. */
  lemma {:induction false} CleanPiecesAreItems(pieces: seq<string>)
    requires forall i :: 0 <= i < |pieces| ==> ',' !in pieces[i]
    ensures forall i :: 0 <= i < |CleanPieces(pieces)| ==> IsItem(CleanPieces(pieces)[i])
    decreases |pieces|
  {
    if pieces != [] {
      var tail := pieces[1..];
      assert forall i :: 0 <= i < |tail| ==> tail[i] == pieces[i + 1];
      CleanPiecesAreItems(tail);
      TrimmedPieceIsItem(pieces[0]);
      var t := Trim(pieces[0]);
      var rest := CleanPieces(tail);
      if t != [] {
        var r := [t] + rest;
        forall i | 0 <= i < |r| ensures IsItem(r[i]) {
          if i > 0 { assert r[i] == rest[i - 1]; }
        }
      }
    }
  }

  /** `text.split(",").map(s => s.trim()).filter(Boolean)`: at most one item per comma-separated
      piece (`ParsedItemsAreClean`: each one clean; `ItemsAtComma`: in input order). */
  function Items(text: string): (r: seq<string>)
    ensures |r| <= |Split(text)|
  {
    CleanPieces(Split(text))
  }

  /** `text ? text.split(",").map(s => s.trim()).filter(Boolean) : null`: an empty input is null,
      anything else a list (`ParsedItemsAreClean`: of clean items). */
  function ParseList(text: string): (r: Option<seq<string>>)
    ensures r.None? <==> text == []
  {
    if text == [] then None else Some(Items(text))
  }

  /** Every item parsed from a list input is non-empty, trimmed and comma-free. */
  lemma ParsedItemsAreClean(text: string)
    ensures forall i :: 0 <= i < |Items(text)| ==> IsItem(Items(text)[i])
    ensures ParseList(text).Some? ==> ParseList(text).value == Items(text)
  {
    CleanPiecesAreItems(Split(text));
  }

  /** `list ? list.join(", ") : ""`: how the edit modal shows a stored list. Null and the empty
      list both show as the empty string; otherwise the text starts with the first item
      (`ListRoundTrip`: parsing it gives the list back). */
  function ListText(list: Option<seq<string>>): (r: string)
    ensures list.None? ==> r == []
    ensures list.Some? && list.value == [] ==> r == []
    ensures list.Some? && list.value != [] ==> list.value[0] <= r
  {
    match list
    case Some(xs) => Join(xs, ", ")
    case None => ""
  }

  /** `text || null`: an empty input is null, any other text is kept exactly (not trimmed). */
  function ParseLink(text: string): (r: Option<string>)
    ensures r.None? <==> text == []
    ensures r.Some? ==> r.value == text
  {
    if text == [] then None else Some(text)
  }

  /** `link || ""`: how the edit modal shows a stored link. */
  function LinkText(link: Option<string>): (r: string)
    ensures link.Some? ==> r == link.value
    ensures link.None? ==> r == []
  {
    link.GetOr("")
  }

  /** The object both modals build from a form in `handleSubmit`: the edit modal adds the
      project's id; the lists and the link are sent as `null` when their input is empty; the
      creation time is never sent. */
  function FormDraft(f: Form, id: Option<string>): (d: Draft)
    ensures d.id == id && d.name == f.name && d.description == f.description && d.createdAt.None?
    ensures d.githubLinks.ToOption() == ParseList(f.githubLinks) && !d.githubLinks.Absent?
    ensures d.demoLink.ToOption() == ParseLink(f.demoLink) && !d.demoLink.Absent?
    ensures d.tags.ToOption() == ParseList(f.tags) && !d.tags.Absent?
  {
    Draft(id, f.name, f.description, OrNull(ParseList(f.githubLinks)), OrNull(ParseLink(f.demoLink)),
          OrNull(ParseList(f.tags)), None)
  }

  /** That object as the server action receives it. */
  function FormPayload(f: Form, id: Option<string>): (p: RawPayload)
    ensures p.createdAt.Missing?
    ensures p.name == Given(StrValue(f.name)) && p.description == Given(StrValue(f.description))
    ensures id.None? ==> p.id.Missing?
    ensures id.Some? ==> p.id == Given(StrValue(id.value))
  {
    Encode(FormDraft(f, id))
  }

  /** Cleaning distributes over concatenation: items keep their relative order. */
  lemma {:induction false} CleanPiecesAppend(a: seq<string>, b: seq<string>)
    ensures CleanPieces(a + b) == CleanPieces(a) + CleanPieces(b)
    decreases |a|
  {
    if a == [] {
      assert a + b == b;
    } else {
      assert (a + b)[0] == a[0];
      assert (a + b)[1..] == a[1..] + b;
      CleanPiecesAppend(a[1..], b);
    }
  }

  /** Order is kept across a comma: the items of `a + "," + b` are `a`'s items followed by `b`'s. */
  lemma ItemsAtComma(a: string, b: string)
    ensures Items(a + [','] + b) == Items(a) + Items(b)
  {
    SplitAtComma(a, b);
    CleanPiecesAppend(Split(a), Split(b));
  }

  /** A comma-free input is one piece: its trimmed text, or nothing if it is blank. */
  lemma ItemsOfCommaFree(s: string)
    requires ',' !in s
    ensures Items(s) == (if IsBlank(s) then [] else [Trim(s)])
  {
    TrimEmptyIffBlank(s);
    SplitCommaFree(s);
    assert Split(s)[1..] == [];
  }

  /** Whitespace is never a comma. */
  lemma BlankIsCommaFree(s: string)
    requires IsBlank(s)
    ensures ',' !in s
  {
    assert !IsWhitespace(',');
  }

  /** Every character is a comma or whitespace. */
  predicate OnlySeparators(s: string) {
    forall k :: 0 <= k < |s| ==> s[k] == ',' || IsWhitespace(s[k])
  }

  /** Cutting an input of separators at one of its commas leaves separators on both sides. */
  lemma CutAtComma(text: string, k: int)
    requires OnlySeparators(text) && 0 <= k < |text| && text[k] == ','
    ensures text == text[..k] + [','] + text[k + 1..]
    ensures OnlySeparators(text[..k]) && OnlySeparators(text[k + 1..])
  {
    var a, b := text[..k], text[k + 1..];
    assert forall j :: 0 <= j < |a| ==> a[j] == text[j];
    assert forall j :: 0 <= j < |b| ==> b[j] == text[k + 1 + j];
  }

  /** An input made only of commas and whitespace has no items. */
  lemma {:induction false} SeparatorsOnlyHaveNoItems(text: string)
    requires OnlySeparators(text)
    ensures Items(text) == []
    decreases |text|
  {
    if ',' in text {
      var k :| 0 <= k < |text| && text[k] == ',';
      CutAtComma(text, k);
      ItemsAtComma(text[..k], text[k + 1..]);
      SeparatorsOnlyHaveNoItems(text[..k]);
      SeparatorsOnlyHaveNoItems(text[k + 1..]);
    } else {
      assert IsBlank(text);
      ItemsOfCommaFree(text);
    }
  }

  /** A non-empty input made only of commas and whitespace becomes an empty list, not null. */
  lemma SeparatorsOnlyGiveEmptyList(text: string)
    requires text != [] && OnlySeparators(text)
    ensures ParseList(text) == Some([])
  {
    SeparatorsOnlyHaveNoItems(text);
  }

  /** One clean item behind leading whitespace is one piece, and parses back to the item. */
  lemma ItemsOfPaddedItem(lead: string, x: string)
    requires IsBlank(lead) && IsItem(x)
    ensures ',' !in lead + x
    ensures Items(lead + x) == [x]
  {
    var head := lead + x;
    assert ',' !in head by {
      BlankIsCommaFree(lead);
    }
    TrimAfterBlank(lead, x);
    assert !IsBlank(head) by {
      assert head[|lead|] == x[0];
    }
    ItemsOfCommaFree(head);
  }

  /** `join(", ")` of two or more items is the first item, a comma, then a space before the rest. */
  lemma JoinUnfold(lead: string, xs: seq<string>)
    requires |xs| >= 2
    ensures lead + Join(xs, ", ") == (lead + xs[0]) + [','] + (" " + Join(xs[1..], ", "))
  {
    var rest := Join(xs[1..], ", ");
    assert Join(xs, ", ") == xs[0] + ", " + rest;
    CommaSpaceSplit(lead, xs[0], rest);
  }

  /** A `", "` between two texts is a comma with a space after it. */
  lemma CommaSpaceSplit(lead: string, x: string, rest: string)
    ensures lead + (x + ", " + rest) == (lead + x) + [','] + (" " + rest)
  {
    var l := lead + (x + ", " + rest);
    var r := (lead + x) + [','] + (" " + rest);
    assert |l| == |r|;
    forall k | 0 <= k < |l| ensures l[k] == r[k] {
    }
  }

  /** Joining clean items with `", "` behind some leading whitespace and parsing gives the items back. */
  lemma {:induction false} ItemsOfJoin(lead: string, xs: seq<string>)
    requires IsBlank(lead)
    requires |xs| >= 1
    requires forall i :: 0 <= i < |xs| ==> IsItem(xs[i])
    ensures Items(lead + Join(xs, ", ")) == xs
    decreases |xs|
  {
    if |xs| == 1 {
      ItemsOfPaddedItem(lead, xs[0]);
      assert lead + Join(xs, ", ") == lead + xs[0];
      assert xs == [xs[0]];
    } else {
      var tail := xs[1..];
      assert forall i :: 0 <= i < |tail| ==> tail[i] == xs[i + 1];
      SpaceIsBlank();
      ItemsOfJoin(" ", tail);
      ItemsOfJoinStep(lead, xs);
    }
  }

  /** A single space is blank. */
  lemma SpaceIsBlank()
    ensures IsBlank(" ")
  {
    assert IsWhitespace(" "[0]);
  }

  /** The inductive step of `ItemsOfJoin`: the first item comes back from behind the leading
      whitespace, and the rest from behind the space that follows the comma. */
  lemma ItemsOfJoinStep(lead: string, xs: seq<string>)
    requires IsBlank(lead) && |xs| >= 2 && IsItem(xs[0])
    requires Items(" " + Join(xs[1..], ", ")) == xs[1..]
    ensures Items(lead + Join(xs, ", ")) == xs
  {
    var rest := Join(xs[1..], ", ");
    ItemsOfPaddedItem(lead, xs[0]);
    JoinUnfold(lead, xs);
    ItemsAtComma(lead + xs[0], " " + rest);
    assert [xs[0]] + xs[1..] == xs;
  }

  /** Round trip of a list through the edit modal (shown with `join(", ")`, submitted through
      split/trim/filter): a list of clean items comes back unchanged, except that an empty list
      comes back as null; null stays null. */
  lemma ListRoundTrip(list: Option<seq<string>>)
    requires list.Some? ==> forall i :: 0 <= i < |list.value| ==> IsItem(list.value[i])
    ensures list.Some? && list.value != [] ==> ParseList(ListText(list)) == list
    ensures list.Some? && list.value == [] ==> ParseList(ListText(list)) == None
    ensures list.None? ==> ParseList(ListText(list)) == None
  {
    if list.Some? && list.value != [] {
      ItemsOfJoin("", list.value);
      assert "" + Join(list.value, ", ") == Join(list.value, ", ");
      assert Join(list.value, ", ") != [] by {
        if |list.value| == 1 {
        } else {
          assert |Join(list.value, ", ")| >= |list.value[0]|;
        }
      }
    }
  }

  /** Round trip of the demo link through the edit modal: null stays null, a non-empty link is
      unchanged, and an empty stored link comes back as null. */
  lemma LinkRoundTrip(link: Option<string>)
    ensures link.None? ==> ParseLink(LinkText(link)) == None
    ensures link.Some? && link.value != [] ==> ParseLink(LinkText(link)) == link
    ensures link == Some("") ==> ParseLink(LinkText(link)) == None
  {
  }

  /** Every payload a form builds passes the insert schema when its id (if any) is a UUID, and
      the server sees exactly the object the form built: the client never triggers the
      formatted-field-errors reply. */
  lemma FormPayloadValidates(f: Form, id: Option<string>)
    requires id.Some? ==> IsUuid(id.value)
    ensures Validate(FormPayload(f, id)) == Valid(FormDraft(f, id))
  {
    ValidateEncode(FormDraft(f, id));
  }
}

=== FILE: insert_modal.dfy ===
/** The state machine of `InsertProjectModal`: a form, an error line, and the callbacks it fires. */
module InsertModal {
  import opened Wrappers
  import opened Schema
  import opened Actions
  import opened Forms

  /** The modal's state: the form and the error shown above it (`""` shows nothing). */
  datatype State = State(form: Form, error: string)

  /** A state together with the callbacks fired, in order, on the way to it. */
  datatype Step = Step(state: State, effects: seq<Effect>)

  /** Fresh and after every close: an empty form and no error. */
  const Initial: State := State(EmptyForm, "")

  /** Shown when the server answers with zod's field errors instead of a message. */
  const InvalidDataFormat: string := "Invalid data format"

  /** `handleChange`: the edited input takes the new text and any error is cleared. */
  function Change(s: State, input: Input, value: string): (r: State)
    ensures Get(r.form, input) == value
    ensures forall other :: other != input ==> Get(r.form, other) == Get(s.form, other)
    ensures r.error == ""
  {
    State(SetInput(s.form, input, value), "")
  }

  /** `handleClose`: clear the error, reset the form, then call `onClose`. */
  function Close(s: State): (r: Step)
    ensures r.state.form == EmptyForm && r.state.error == ""
    ensures r.effects == [Closed]
  {
    Step(Initial, [Closed])
  }

  /** `handleSubmit` up to the server call: the payload sent, if the browser lets the form submit. */
  function Submit(s: State): (r: Option<RawPayload>)
    ensures r.Some? <==> Submittable(s.form)
    ensures r.Some? ==> r.value == FormPayload(s.form, None)
    ensures r.Some? ==> r.value.id.Missing? && r.value.name == Given(StrValue(s.form.name))
  {
    if Submittable(s.form) then Some(FormPayload(s.form, None)) else None
  }

  /** `handleSubmit` after the server call. A failure shows the message (or the fallback for field
      errors) and keeps the form; a thrown error shows its message; success closes the modal
      (empty form, no error, `onClose`) and then calls `onSuccess` when one was given. */
  function Finish(s: State, reply: Reply<Response<Draft>>, hasOnSuccess: bool): (r: Step)
    ensures reply.Returned? && reply.value.Failure? ==>
      r == Step(State(s.form, ShownError(reply.value.error, InvalidDataFormat)), [])
    ensures reply.Threw? ==> r == Step(State(s.form, reply.message), [])
    ensures reply.Returned? && reply.value.Success? ==>
      && r.state == Initial
      && r.effects == (if hasOnSuccess then [Closed, Succeeded] else [Closed])
  {
    match reply
    case Threw(message) => Step(State(s.form, message), [])
    case Returned(Failure(e)) => Step(State(s.form, ShownError(e, InvalidDataFormat)), [])
    case Returned(Success(_)) =>
      var closed := Close(s);
      Step(closed.state, closed.effects + if hasOnSuccess then [Succeeded] else [])
  }
}

=== FILE: scenarios.dfy ===
/** End-to-end properties: a modal's payload sent through a server action against the table. */
module Scenarios {
  import opened Wrappers
  import opened Text
  import opened Schema
  import opened Actions
  import opened ActionLaws
  import opened Forms
  import InsertModal
  import EditModal

  /** A stored list the edit form reproduces exactly: null, or a non-empty list of clean items. */
  predicate Reproducible(list: Option<seq<string>>) {
    list.Some? ==> list.value != [] && forall i :: 0 <= i < |list.value| ==> IsItem(list.value[i])
  }

  /** A stored project whose every column survives the edit form unchanged. */
  predicate Editable(p: Project) {
    && p.name != [] && p.description != []
    && p.demoLink != Some("")
    && Reproducible(p.githubLinks)
    && Reproducible(p.tags)
  }

  /** Submitting the insert modal as the administrator (database answering, fresh id unused) adds
      exactly the row the form describes, then resets the modal and fires `onClose`, `onSuccess`. */
  lemma InsertThroughModal(t: Table, s: InsertModal.State, session: Option<Session>, adminEmail: Option<string>,
                           freshId: string, now: nat)
    requires Submittable(s.form)
    requires Authorised(session, adminEmail)
    requires !HasKey(t, CanonUuid(freshId))
    ensures var payload := InsertModal.Submit(s).value;
      var r := InsertProjects(t, session, adminEmail, payload, freshId, now, None);
      && r.reply.Success?
      && r.table == t + [Project(CanonUuid(freshId), s.form.name, s.form.description, ParseList(s.form.githubLinks),
                                 ParseLink(s.form.demoLink), ParseList(s.form.tags), now)]
      && InsertModal.Finish(s, Returned(r.reply), true) == InsertModal.Step(InsertModal.Initial, [Closed, Succeeded])
  {
    FormPayloadValidates(s.form, None);
  }

  /** A caller who fails the gate sees the not-authorised message in the insert modal, keeps the
      form, and the table is unchanged. */
  lemma DeniedInsertThroughModal(t: Table, s: InsertModal.State, session: Option<Session>, adminEmail: Option<string>,
                                 freshId: string, now: nat, fault: Option<string>)
    requires Submittable(s.form)
    requires !Authorised(session, adminEmail)
    ensures var r := InsertProjects(t, session, adminEmail, InsertModal.Submit(s).value, freshId, now, fault);
      && r.table == t
      && InsertModal.Finish(s, Returned(r.reply), true) == InsertModal.Step(InsertModal.State(s.form, NotAuthorised), [])
  {
  }

  /** The server itself does not require a non-empty name: with both emails absent (which passes
      the gate) an insert with an empty name succeeds and stores it. Only the modal's `required`
      inputs keep empty names out. */
  lemma EmptyNameReachesTable(freshId: string, now: nat)
    ensures Authorised(None, None)
    ensures var r := InsertProjects([], None, None, FormPayload(EmptyForm, None), freshId, now, None);
      && r.reply.Success?
      && r.table == [Project(CanonUuid(freshId), "", "", None, None, None, now)]
    ensures InsertModal.Submit(InsertModal.Initial).None?
  {
    FormPayloadValidates(EmptyForm, None);
  }

  /** The rows the edit modal can touch: the one with the project's id, by the primary key. */
  lemma UpdateOwnRowOnly(t: Table, k: int, d: Draft)
    requires WellFormedTable(t) && 0 <= k < |t|
    requires Overwrite(t[k], d) == t[k]
    ensures UpdateWhere(t, t[k].id, d) == t
  {
  }

  /** Opening the edit modal on a stored project and saving without edits, as the administrator,
      succeeds and leaves the table exactly as it was, when the project's columns are ones the
      form reproduces; then the modal resets and fires `onClose` and `onSuccess`. */
  lemma EditWithoutChangesKeepsTable(t: Table, k: int, s: EditModal.State, session: Option<Session>, adminEmail: Option<string>)
    requires WellFormedTable(t) && 0 <= k < |t|
    requires Editable(t[k])
    requires Authorised(session, adminEmail)
    ensures var filled := EditModal.Open(s, Some(t[k]), true);
      var payload := EditModal.Submit(filled, Some(t[k]));
      && payload.Some?
      && var r := UpdateProjects(t, session, adminEmail, payload.value, None);
         && r.reply.Success? && r.table == t
         && EditModal.FinishUpdate(filled, Returned(r.reply), true) == EditModal.Step(EditModal.Initial, [Closed, Succeeded])
  {
    var p := t[k];
    CanonOfCanon(p.id);
    SaveUnchangedRow(p);
    UpdateOwnRowOnly(t, k, FormDraft(EditModal.FormOf(p), Some(p.id)));
  }

  /** The edit form of an editable project, sent back unchanged, validates to a draft that carries
      the project's id and overwrites the project's row with itself. */
  lemma SaveUnchangedRow(p: Project)
    requires IsUuid(p.id) && Editable(p)
    ensures var d := FormDraft(EditModal.FormOf(p), Some(p.id));
      && Validate(FormPayload(EditModal.FormOf(p), Some(p.id))) == Valid(d)
      && Overwrite(p, d) == p
  {
    var f := EditModal.FormOf(p);
    FormPayloadValidates(f, Some(p.id));
    ListRoundTrip(p.githubLinks);
    ListRoundTrip(p.tags);
    LinkRoundTrip(p.demoLink);
  }

  /** Saving without edits turns a stored empty list into null: the edit form shows `""` for it,
      which the payload sends as null. */
  lemma EditWithoutChangesNullsEmptyList(t: Table, k: int, s: EditModal.State, session: Option<Session>, adminEmail: Option<string>)
    requires WellFormedTable(t) && 0 <= k < |t|
    requires t[k].name != [] && t[k].description != []
    requires t[k].tags == Some([])
    requires Authorised(session, adminEmail)
    ensures var filled := EditModal.Open(s, Some(t[k]), true);
      var r := UpdateProjects(t, session, adminEmail, EditModal.Submit(filled, Some(t[k])).value, None);
      && r.reply.Success?
      && r.table[k].tags == None
  {
    var f := EditModal.FormOf(t[k]);
    CanonOfCanon(t[k].id);
    FormPayloadValidates(f, Some(t[k].id));
    ListRoundTrip(t[k].tags);
  }

  /** Deleting from the edit modal as the administrator removes the project's row, keeps every
      other row, and closes the modal with `onClose` then `onSuccess` (the reply is `undefined`). */
  lemma DeleteThroughModal(t: Table, k: int, s: EditModal.State, session: Option<Session>, adminEmail: Option<string>)
    requires WellFormedTable(t) && 0 <= k < |t|
    requires Authorised(session, adminEmail)
    ensures var id := EditModal.DeleteRequest(Some(t[k])).value;
      var r := DeleteProjects(t, session, adminEmail, id, None);
      && r.reply.None?
      && !HasKey(r.table, t[k].id)
      && (forall i :: 0 <= i < |t| && i != k ==> t[i] in r.table)
      && |r.table| == |t| - 1
      && EditModal.FinishDelete(s, Returned(r.reply), true) == EditModal.Step(EditModal.Initial, [Closed, Succeeded])
  {
    var id := t[k].id;
    var r := DeleteProjects(t, session, adminEmail, id, None);
    assert t[k].id != [];
    CanonOfCanon(id);
    DeleteOutcomes(t, session, adminEmail, id);
    DeleteOneRow(t, k);
  }

  /** A failed delete keeps the edit modal open on the same form, shows the message, and closes
      the confirmation dialog; a caller who fails the gate is one such failure. */
  lemma DeniedDeleteThroughModal(t: Table, k: int, s: EditModal.State, session: Option<Session>, adminEmail: Option<string>,
                                 fault: Option<string>)
    requires 0 <= k < |t|
    requires !Authorised(session, adminEmail)
    ensures var r := DeleteProjects(t, session, adminEmail, EditModal.DeleteRequest(Some(t[k])).value, fault);
      && r.table == t
      && EditModal.FinishDelete(s, Returned(r.reply), true) == EditModal.Step(EditModal.State(s.form, NotAuthorised, false), [])
  {
  }
}

=== FILE: schema.dfy ===
/** The `projects` table and its insert schema (`app/db/schema.ts`).

    A server action receives whatever the client serialised, so its payload is modelled
    as untyped JSON-like values; `Validate` plays `insertProjectSchma.safeParse`. */
module Schema {
  import opened Wrappers

  /** A client-supplied value. `Stamp` is a `Date` object (a point in time as a natural number). */
  datatype Value =
    | NullValue
    | BoolValue(b: bool)
    | NumValue(n: int)
    | StrValue(s: string)
    | ListValue(items: seq<Value>)
    | Stamp(t: nat)

  /** One key of a payload object: missing (`undefined`) or given. */
  datatype Field = Missing | Given(v: Value)

  /** JavaScript truthiness of a field (`!payload.id` is its negation). */
  predicate Truthy(f: Field) {
    match f
    case Missing => false
    case Given(v) =>
      match v
      case NullValue => false
      case BoolValue(b) => b
      case NumValue(n) => n != 0
      case StrValue(s) => s != []
      case _ => true
  }

  /** The insert payload as received, one field per column of the table. */
  datatype RawPayload = RawPayload(
    id: Field,
    name: Field,
    description: Field,
    githubLinks: Field,
    demoLink: Field,
    tags: Field,
    createdAt: Field)

  /** The columns of `projects`, in declaration order; validation errors are reported per column. */
  datatype Column = IdColumn | NameColumn | DescriptionColumn | GithubLinksColumn | DemoLinkColumn | TagsColumn | CreatedAtColumn

  /** A payload that passed validation. `id` and `createdAt` are optional (the table has defaults
      for them); the nullable columns keep the difference between omitted and `null`. */
  datatype Draft = Draft(
    id: Option<string>,
    name: string,
    description: string,
    githubLinks: Nullable<seq<string>>,
    demoLink: Nullable<string>,
    tags: Nullable<seq<string>>,
    createdAt: Option<nat>)

  /** One stored row. `id` is the primary key; a `None` list or link is SQL NULL. */
  datatype Project = Project(
    id: string,
    name: string,
    description: string,
    githubLinks: Option<seq<string>>,
    demoLink: Option<string>,
    tags: Option<seq<string>>,
    createdAt: nat)

  /** The table, in physical order. */
  type Table = seq<Project>

  /** The outcome of `safeParse`: the parsed data, or the columns that failed (in column order). */
  datatype Validation = Valid(data: Draft) | Invalid(columns: seq<Column>)

  predicate IsHexDigit(c: char) {
    ('0' <= c <= '9') || ('a' <= c <= 'f') || ('A' <= c <= 'F')
  }

  /** The textual UUID form `xxxxxxxx-xxxx-xxxx-xxxx-xxxxxxxxxxxx` of hexadecimal digits. */
  predicate IsUuid(s: string) {
    && |s| == 36
    && forall i :: 0 <= i < 36 ==>
         if i == 8 || i == 13 || i == 18 || i == 23 then s[i] == '-' else IsHexDigit(s[i])
  }

  /** An upper-case hexadecimal letter. */
  predicate IsUpperHex(c: char) {
    'A' <= c <= 'F'
  }

  /** A character as Postgres prints it inside a UUID: hexadecimal letters in lower case. */
  function LowerHex(c: char): (r: char)
    ensures !IsUpperHex(r)
    ensures IsUpperHex(c) ==> r as int == c as int + 32
    ensures !IsUpperHex(c) ==> r == c
  {
    if IsUpperHex(c) then (c as int + 32) as char else c
  }

  /** The text Postgres stores and returns for the UUID that `s` denotes. A `uuid` column compares
      values, not text: two UUID strings name the same key exactly when their canonical texts agree. */
  function CanonUuid(s: string): (r: string)
    ensures |r| == |s|
    ensures forall i :: 0 <= i < |s| ==> r[i] == LowerHex(s[i])
  {
    seq(|s|, i requires 0 <= i < |s| => LowerHex(s[i]))
  }

  /** A UUID in the form Postgres prints: no upper-case hexadecimal letter. */
  predicate IsCanonUuid(s: string) {
    IsUuid(s) && forall i :: 0 <= i < |s| ==> !IsUpperHex(s[i])
  }

  /** The canonical text of a UUID is a canonical UUID. */
  lemma CanonUuidIsCanon(s: string)
    requires IsUuid(s)
    ensures IsCanonUuid(CanonUuid(s))
  {
    var r := CanonUuid(s);
    forall i | 0 <= i < 36
      ensures if i == 8 || i == 13 || i == 18 || i == 23 then r[i] == '-' else IsHexDigit(r[i])
    {
      assert r[i] == LowerHex(s[i]);
    }
  }

  /** Canonical text is its own canonical form, so canonicalising twice changes nothing. */
  lemma CanonOfCanon(s: string)
    requires IsCanonUuid(s)
    ensures CanonUuid(s) == s
  {
    var r := CanonUuid(s);
    assert forall i :: 0 <= i < |s| ==> r[i] == s[i];
  }

  /** `uuid("id").defaultRandom().primaryKey()`: optional on insert, a UUID string when given. */
  function DecodeId(f: Field): (r: Option<Option<string>>)
    ensures r.Some? <==> f.Missing? || (f.v.StrValue? && IsUuid(f.v.s))
    ensures r.Some? ==> (r.value.None? <==> f.Missing?)
    ensures r.Some? && f.Given? ==> r.value.value == f.v.s
  {
    match f
    case Missing => Some(None)
    case Given(StrValue(s)) => if IsUuid(s) then Some(Some(s)) else None
    case Given(_) => None
  }

  /** `text(...).notNull()` without a default: required, a string. */
  function DecodeText(f: Field): (r: Option<string>)
    ensures r.Some? <==> f.Given? && f.v.StrValue?
    ensures r.Some? ==> r.value == f.v.s
  {
    match f
    case Given(StrValue(s)) => Some(s)
    case _ => None
  }

  /** Every item is a string; the strings themselves, in order. */
  function DecodeStrings(vs: seq<Value>): (r: Option<seq<string>>)
    ensures r.Some? <==> forall i :: 0 <= i < |vs| ==> vs[i].StrValue?
    ensures r.Some? ==> |r.value| == |vs| && forall i :: 0 <= i < |vs| ==> r.value[i] == vs[i].s
    decreases |vs|
  {
    if vs == [] then Some([])
    else match vs[0]
      case StrValue(s) =>
        (match DecodeStrings(vs[1..])
         case Some(rest) => Some([s] + rest)
         case None => None)
      case _ => None
  }

  /** `text(...).array()`: optional, nullable, an array of strings. */
  function DecodeTextArray(f: Field): (r: Option<Nullable<seq<string>>>)
    ensures r.Some? <==> f.Missing? || f.v.NullValue? || (f.v.ListValue? && DecodeStrings(f.v.items).Some?)
    ensures r.Some? ==> (r.value.Absent? <==> f.Missing?) && (r.value.Null? <==> f.Given? && f.v.NullValue?)
    ensures r.Some? && r.value.Present? ==> r.value.value == DecodeStrings(f.v.items).value
  {
    match f
    case Missing => Some(Absent)
    case Given(NullValue) => Some(Null)
    case Given(ListValue(vs)) =>
      (match DecodeStrings(vs)
       case Some(xs) => Some(Present(xs))
       case None => None)
    case Given(_) => None
  }

  /** `text("demo_link")`: optional, nullable, a string. */
  function DecodeNullableText(f: Field): (r: Option<Nullable<string>>)
    ensures r.Some? <==> f.Missing? || f.v.NullValue? || f.v.StrValue?
    ensures r.Some? ==> (r.value.Absent? <==> f.Missing?) && (r.value.Null? <==> f.Given? && f.v.NullValue?)
    ensures r.Some? && r.value.Present? ==> r.value.value == f.v.s
  {
    match f
    case Missing => Some(Absent)
    case Given(NullValue) => Some(Null)
    case Given(StrValue(s)) => Some(Present(s))
    case Given(_) => None
  }

  /** `timestamp(...).defaultNow().notNull()`: optional on insert, a date when given. */
  function DecodeTimestamp(f: Field): (r: Option<Option<nat>>)
    ensures r.Some? <==> f.Missing? || f.v.Stamp?
    ensures r.Some? ==> (r.value.None? <==> f.Missing?)
    ensures r.Some? && f.Given? ==> r.value.value == f.v.t
  {
    match f
    case Missing => Some(None)
    case Given(Stamp(t)) => Some(Some(t))
    case Given(_) => None
  }

  /** The columns whose field does not have the column's type, in column order
      (`BadColumnsNamesFailures`: a column is listed exactly when its field fails;
      `BadColumnsInColumnOrder`: in declaration order, each at most once). */
  function BadColumns(p: RawPayload): (r: seq<Column>)
    ensures |r| <= 7
  {
    Flag(DecodeId(p.id).None?, IdColumn)
    + Flag(DecodeText(p.name).None?, NameColumn)
    + Flag(DecodeText(p.description).None?, DescriptionColumn)
    + Flag(DecodeTextArray(p.githubLinks).None?, GithubLinksColumn)
    + Flag(DecodeNullableText(p.demoLink).None?, DemoLinkColumn)
    + Flag(DecodeTextArray(p.tags).None?, TagsColumn)
    + Flag(DecodeTimestamp(p.createdAt).None?, CreatedAtColumn)
  }

  /** One column's entry in the error list: the column if its field failed, nothing otherwise. */
  function Flag(bad: bool, c: Column): (r: seq<Column>)
    ensures |r| <= 1
    ensures bad ==> r == [c]
    ensures !bad ==> r == []
  {
    if bad then [c] else []
  }

  /** Whether the payload's field for column `c` fails that column's decoder. */
  predicate Fails(p: RawPayload, c: Column) {
    match c
    case IdColumn => DecodeId(p.id).None?
    case NameColumn => DecodeText(p.name).None?
    case DescriptionColumn => DecodeText(p.description).None?
    case GithubLinksColumn => DecodeTextArray(p.githubLinks).None?
    case DemoLinkColumn => DecodeNullableText(p.demoLink).None?
    case TagsColumn => DecodeTextArray(p.tags).None?
    case CreatedAtColumn => DecodeTimestamp(p.createdAt).None?
  }

  /** The error list names a column exactly when that column's field fails its decoder. */
  lemma BadColumnsNamesFailures(p: RawPayload, c: Column)
    ensures c in BadColumns(p) <==> Fails(p, c)
  {
    var id, name, description := DecodeId(p.id).None?, DecodeText(p.name).None?, DecodeText(p.description).None?;
    var githubLinks, demoLink := DecodeTextArray(p.githubLinks).None?, DecodeNullableText(p.demoLink).None?;
    var tags, createdAt := DecodeTextArray(p.tags).None?, DecodeTimestamp(p.createdAt).None?;
    FlagsNameRaised(c, id, name, description, githubLinks, demoLink, tags, createdAt);
  }

  /** The column order of the error list, with one flag per column: `c` is listed exactly when its flag is raised. */
  lemma FlagsNameRaised(c: Column, id: bool, name: bool, description: bool, githubLinks: bool,
                        demoLink: bool, tags: bool, createdAt: bool)
    ensures c in Flag(id, IdColumn) + Flag(name, NameColumn) + Flag(description, DescriptionColumn)
                 + Flag(githubLinks, GithubLinksColumn) + Flag(demoLink, DemoLinkColumn)
                 + Flag(tags, TagsColumn) + Flag(createdAt, CreatedAtColumn)
            <==> match c
                 case IdColumn => id
                 case NameColumn => name
                 case DescriptionColumn => description
                 case GithubLinksColumn => githubLinks
                 case DemoLinkColumn => demoLink
                 case TagsColumn => tags
                 case CreatedAtColumn => createdAt
  {
    var s := Flag(id, IdColumn);
    InFlagged(s, name, NameColumn, c);
    s := s + Flag(name, NameColumn);
    InFlagged(s, description, DescriptionColumn, c);
    s := s + Flag(description, DescriptionColumn);
    InFlagged(s, githubLinks, GithubLinksColumn, c);
    s := s + Flag(githubLinks, GithubLinksColumn);
    InFlagged(s, demoLink, DemoLinkColumn, c);
    s := s + Flag(demoLink, DemoLinkColumn);
    InFlagged(s, tags, TagsColumn, c);
    s := s + Flag(tags, TagsColumn);
    InFlagged(s, createdAt, CreatedAtColumn, c);
  }

  /** The position of a column in the schema's declaration order. */
  function Ord(c: Column): nat {
    match c
    case IdColumn => 0
    case NameColumn => 1
    case DescriptionColumn => 2
    case GithubLinksColumn => 3
    case DemoLinkColumn => 4
    case TagsColumn => 5
    case CreatedAtColumn => 6
  }

  /** Columns listed strictly in declaration order, so each at most once. */
  predicate InColumnOrder(cs: seq<Column>) {
    forall i, j :: 0 <= i < j < |cs| ==> Ord(cs[i]) < Ord(cs[j])
  }

  /** The error list follows the schema's column order and names each column at most once. */
  lemma BadColumnsInColumnOrder(p: RawPayload)
    ensures InColumnOrder(BadColumns(p))
    ensures forall i, j :: 0 <= i < j < |BadColumns(p)| ==> BadColumns(p)[i] != BadColumns(p)[j]
  {
    var id, name, description := DecodeId(p.id).None?, DecodeText(p.name).None?, DecodeText(p.description).None?;
    var githubLinks, demoLink := DecodeTextArray(p.githubLinks).None?, DecodeNullableText(p.demoLink).None?;
    var tags, createdAt := DecodeTextArray(p.tags).None?, DecodeTimestamp(p.createdAt).None?;
    FlagsInColumnOrder(id, name, description, githubLinks, demoLink, tags, createdAt);
  }

  /** With one flag per column, the raised columns come out in declaration order. */
  lemma FlagsInColumnOrder(id: bool, name: bool, description: bool, githubLinks: bool,
                           demoLink: bool, tags: bool, createdAt: bool)
    ensures InColumnOrder(Flag(id, IdColumn) + Flag(name, NameColumn) + Flag(description, DescriptionColumn)
                          + Flag(githubLinks, GithubLinksColumn) + Flag(demoLink, DemoLinkColumn)
                          + Flag(tags, TagsColumn) + Flag(createdAt, CreatedAtColumn))
  {
    var s := Flag(id, IdColumn);
    AppendFlagInOrder(s, name, NameColumn);
    s := s + Flag(name, NameColumn);
    AppendFlagInOrder(s, description, DescriptionColumn);
    s := s + Flag(description, DescriptionColumn);
    AppendFlagInOrder(s, githubLinks, GithubLinksColumn);
    s := s + Flag(githubLinks, GithubLinksColumn);
    AppendFlagInOrder(s, demoLink, DemoLinkColumn);
    s := s + Flag(demoLink, DemoLinkColumn);
    AppendFlagInOrder(s, tags, TagsColumn);
    s := s + Flag(tags, TagsColumn);
    AppendFlagInOrder(s, createdAt, CreatedAtColumn);
  }

  /** Appending a column that comes after every listed one keeps the list in order, and no
      listed column then comes after it. */
  lemma AppendFlagInOrder(s: seq<Column>, bad: bool, d: Column)
    requires InColumnOrder(s)
    requires forall i :: 0 <= i < |s| ==> Ord(s[i]) < Ord(d)
    ensures InColumnOrder(s + Flag(bad, d))
    ensures forall i :: 0 <= i < |s + Flag(bad, d)| ==> Ord((s + Flag(bad, d))[i]) <= Ord(d)
  {
  }

  /** Appending one column's entry adds that column exactly when its flag is raised. */
  lemma InFlagged(s: seq<Column>, bad: bool, d: Column, c: Column)
    ensures c in s + Flag(bad, d) <==> c in s || (bad && c == d)
  {
  }

  /** `insertProjectSchma.safeParse(p)`: valid exactly when every field has its column's type,
      and then the draft carries the fields' values unchanged; otherwise the failing columns. */
  function Validate(p: RawPayload): (r: Validation)
    ensures r.Valid? <==> BadColumns(p) == []
    ensures r.Invalid? ==> r.columns == BadColumns(p)
    ensures r.Valid? ==> Encode(r.data) == p
  {
    match (DecodeId(p.id), DecodeText(p.name), DecodeText(p.description), DecodeTextArray(p.githubLinks),
           DecodeNullableText(p.demoLink), DecodeTextArray(p.tags), DecodeTimestamp(p.createdAt))
    case (Some(id), Some(name), Some(description), Some(githubLinks), Some(demoLink), Some(tags), Some(createdAt)) =>
      var d := Draft(id, name, description, githubLinks, demoLink, tags, createdAt);
      EncodeDecodeStrings(p.githubLinks);
      EncodeDecodeStrings(p.tags);
      Valid(d)
    case _ => Invalid(BadColumns(p))
  }

  /** A string list as the client sends it. */
  function EncodeStrings(xs: seq<string>): (r: seq<Value>)
    ensures |r| == |xs| && forall i :: 0 <= i < |xs| ==> r[i] == StrValue(xs[i])
  {
    seq(|xs|, i requires 0 <= i < |xs| => StrValue(xs[i]))
  }

  /** A nullable string-array column as the client sends it: omitted, `null`, or the array. */
  function EncodeList(n: Nullable<seq<string>>): Field {
    match n
    case Absent => Missing
    case Null => Given(NullValue)
    case Present(xs) => Given(ListValue(EncodeStrings(xs)))
  }

  /** A nullable text column as the client sends it. */
  function EncodeLink(n: Nullable<string>): Field {
    match n
    case Absent => Missing
    case Null => Given(NullValue)
    case Present(s) => Given(StrValue(s))
  }

  /** The payload a client sends to have `d` parsed back: the inverse of `Validate` (`ValidateEncode`). */
  function Encode(d: Draft): RawPayload {
    RawPayload(
      match d.id case Some(s) => Given(StrValue(s)) case None => Missing,
      Given(StrValue(d.name)),
      Given(StrValue(d.description)),
      EncodeList(d.githubLinks),
      EncodeLink(d.demoLink),
      EncodeList(d.tags),
      match d.createdAt case Some(t) => Given(Stamp(t)) case None => Missing)
  }

  /** A decoded string array re-encodes to the values it came from. */
  lemma EncodeDecodeStrings(f: Field)
    requires DecodeTextArray(f).Some?
    ensures EncodeList(DecodeTextArray(f).value) == f
  {
    if f.Given? && f.v.ListValue? {
      var xs := DecodeStrings(f.v.items).value;
      assert EncodeStrings(xs) == f.v.items;
    }
  }

  /** A draft whose id, if any, is a UUID is what `Validate` makes of its own encoding. */
  predicate WellFormedDraft(d: Draft) {
    d.id.Some? ==> IsUuid(d.id.value)
  }

  /** Round trip: validation accepts the encoding of every well-formed draft and returns the draft. */
  lemma ValidateEncode(d: Draft)
    requires WellFormedDraft(d)
    ensures Validate(Encode(d)) == Valid(d)
  {
    var p := Encode(d);
    DecodeEncodeList(d.githubLinks);
    DecodeEncodeList(d.tags);
    assert DecodeId(p.id) == Some(d.id);
    assert DecodeNullableText(p.demoLink) == Some(d.demoLink);
    assert DecodeTimestamp(p.createdAt) == Some(d.createdAt);
  }

  /** An encoded array column decodes to the value it came from. */
  lemma DecodeEncodeList(n: Nullable<seq<string>>)
    ensures DecodeTextArray(EncodeList(n)) == Some(n)
  {
    if n.Present? {
      DecodeEncodeStrings(n.value);
    }
  }

  /** Decoding an encoded string list gives the list back. */
  lemma DecodeEncodeStrings(xs: seq<string>)
    ensures DecodeStrings(EncodeStrings(xs)) == Some(xs)
  {
    var r := DecodeStrings(EncodeStrings(xs));
    assert r.value == xs;
  }

  /** Every draft validation produces is well formed: a supplied id is a UUID. */
  lemma ValidIsWellFormed(p: RawPayload)
    requires Validate(p).Valid?
    ensures WellFormedDraft(Validate(p).data)
    ensures Validate(p).data.id.Some? <==> p.id.Given?
  {
  }

  /** Some row of the table holds this id text (for a canonical key: this UUID). */
  predicate HasKey(t: Table, key: string) {
    exists i :: 0 <= i < |t| && t[i].id == key
  }

  /** The table invariants Postgres maintains: `id` is a UUID, held in its canonical text, and the
      primary key (no two rows share it). `name` and `description` are present by construction of
      `Project`. */
  predicate WellFormedTable(t: Table) {
    && (forall i :: 0 <= i < |t| ==> IsCanonUuid(t[i].id))
    && (forall i, j :: 0 <= i < j < |t| ==> t[i].id != t[j].id)
  }
}

=== FILE: text.dfy ===
/** The string primitives the project forms use: JavaScript's `String.prototype.trim`,
    `split(",")` and `Array.prototype.join(sep)`, over strings as sequences of characters. */
module Text {

  /** JavaScript's WhiteSpace and LineTerminator code points, which `trim` strips:
      TAB, VT, FF, SP, NBSP, ZWNBSP, the space separators of category Zs, LF, CR, LS and PS. */
  predicate IsWhitespace(c: char) {
    || c == '\t' || c == '\U{000B}' || c == '\U{000C}' || c == ' '
    || c == '\U{00A0}' || c == '\U{FEFF}' || c == '\U{1680}'
    || ('\U{2000}' <= c <= '\U{200A}')
    || c == '\U{202F}' || c == '\U{205F}' || c == '\U{3000}'
    || c == '\n' || c == '\r' || c == '\U{2028}' || c == '\U{2029}'
  }

  /** No whitespace at either end. */
  predicate IsTrimmed(s: string) {
    s == [] || (!IsWhitespace(s[0]) && !IsWhitespace(s[|s| - 1]))
  }

  /** Every character is whitespace. */
  predicate IsBlank(s: string) {
    forall k :: 0 <= k < |s| ==> IsWhitespace(s[k])
  }

  /** Removes leading whitespace: the result is a suffix of `s` that does not start with
      whitespace (`TrimStartDropsWhitespace`: what was dropped is all whitespace). */
  function TrimStart(s: string): (r: string)
    ensures |r| <= |s| && r == s[|s| - |r|..]
    ensures r == [] || !IsWhitespace(r[0])
    decreases |s|
  {
    if |s| > 0 && IsWhitespace(s[0]) then TrimStart(s[1..]) else s
  }

  /** Removes trailing whitespace: the result is a prefix of `s` that does not end with
      whitespace (`TrimEndDropsWhitespace`: what was dropped is all whitespace). */
  function TrimEnd(s: string): (r: string)
    ensures |r| <= |s| && r == s[..|r|]
    ensures r == [] || !IsWhitespace(r[|r| - 1])
    decreases |s|
  {
    if |s| > 0 && IsWhitespace(s[|s| - 1]) then TrimEnd(s[..|s| - 1]) else s
  }

  /** Every character `TrimStart` drops is whitespace. */
  lemma {:induction false} TrimStartDropsWhitespace(s: string)
    ensures forall k :: 0 <= k < |s| - |TrimStart(s)| ==> IsWhitespace(s[k])
    decreases |s|
  {
    if |s| > 0 && IsWhitespace(s[0]) {
      var tail := s[1..];
      TrimStartDropsWhitespace(tail);
      assert forall k :: 1 <= k < |s| ==> s[k] == tail[k - 1];
    }
  }

  /** Every character `TrimEnd` drops is whitespace. */
  lemma {:induction false} TrimEndDropsWhitespace(s: string)
    ensures forall k :: |TrimEnd(s)| <= k < |s| ==> IsWhitespace(s[k])
    decreases |s|
  {
    if |s| > 0 && IsWhitespace(s[|s| - 1]) {
      var front := s[..|s| - 1];
      TrimEndDropsWhitespace(front);
      assert forall k :: 0 <= k < |front| ==> s[k] == front[k];
    }
  }

  /** `s.trim()`: no whitespace left at either end (`TrimEmptyIffBlank`: empty exactly when `s`
      is blank; `TrimIsInfix`: where the result sits in `s`; `TrimKeepsOut`: it adds no character). */
  function Trim(s: string): (r: string)
    ensures IsTrimmed(r)
  {
    TrimEndOfTrimStart(s);
    TrimEnd(TrimStart(s))
  }

  /** Trimming the end after the start leaves no whitespace at either end. */
  lemma TrimEndOfTrimStart(s: string)
    ensures IsTrimmed(TrimEnd(TrimStart(s)))
  {
    var a := TrimStart(s);
    var r := TrimEnd(a);
    if r != [] {
      assert r[0] == a[0];
    }
  }

  /** `s.trim()` is empty exactly when `s` is made only of whitespace. */
  lemma TrimEmptyIffBlank(s: string)
    ensures Trim(s) == [] <==> IsBlank(s)
  {
    var a := TrimStart(s);
    var r := TrimEnd(a);
    assert Trim(s) == r;
    var i := |s| - |a|;
    TrimStartDropsWhitespace(s);
    if r != [] {
      assert r[0] == a[0];
      assert !IsWhitespace(s[i]);
    } else {
      TrimEndDropsWhitespace(a);
      assert a == [];
    }
  }

  /** The trimmed text sits in `s` right after the leading whitespace that `TrimStart` drops. */
  lemma TrimIsInfix(s: string)
    ensures var r := Trim(s);
      var i := |s| - |TrimStart(s)|;
      i + |r| <= |s| && r == s[i..i + |r|]
  {
    var a := TrimStart(s);
    assert Trim(s) == TrimEnd(a);
    PrefixOfSuffix(s, a, TrimEnd(a));
  }

  /** Around the trimmed text there is only whitespace: before it and after it. */
  lemma TrimSurroundings(s: string)
    ensures var r := Trim(s);
      var i := |s| - |TrimStart(s)|;
      i + |r| <= |s| && IsBlank(s[..i]) && IsBlank(s[i + |r|..])
  {
    TrimStartDropsBlank(s);
    TrimTrailingBlank(s);
  }

  /** After the trimmed text there is only whitespace. */
  lemma TrimTrailingBlank(s: string)
    ensures |s| - |TrimStart(s)| + |Trim(s)| <= |s|
    ensures IsBlank(s[|s| - |TrimStart(s)| + |Trim(s)|..])
  {
    var a := TrimStart(s);
    var r := TrimEnd(a);
    TrimEndDropsBlank(a);
    BlankSuffixOfSuffix(s, a, |r|);
    assert |Trim(s)| == |r|;
  }

  /** A blank tail of a suffix of `s` is a blank tail of `s`. */
  lemma BlankSuffixOfSuffix(s: string, a: string, n: int)
    requires |a| <= |s| && a == s[|s| - |a|..]
    requires 0 <= n <= |a| && IsBlank(a[n..])
    ensures IsBlank(s[|s| - |a| + n..])
  {
    SuffixOfSuffix(s, a, n);
  }

  /** A prefix `r` of a suffix `a` of `s` is the infix of `s` at `a`'s offset. */
  lemma PrefixOfSuffix<T>(s: seq<T>, a: seq<T>, r: seq<T>)
    requires |a| <= |s| && a == s[|s| - |a|..]
    requires |r| <= |a| && r == a[..|r|]
    ensures r == s[|s| - |a|..|s| - |a| + |r|]
  {
  }

  /** Dropping `n` more from a suffix `a` of `s` is a suffix of `s`. */
  lemma SuffixOfSuffix<T>(s: seq<T>, a: seq<T>, n: int)
    requires |a| <= |s| && a == s[|s| - |a|..]
    requires 0 <= n <= |a|
    ensures a[n..] == s[|s| - |a| + n..]
  {
  }

  /** What `TrimStart` drops is a blank prefix. */
  lemma TrimStartDropsBlank(s: string)
    ensures IsBlank(s[..|s| - |TrimStart(s)|])
  {
    TrimStartDropsWhitespace(s);
    BlankTake(s, |s| - |TrimStart(s)|);
  }

  /** What `TrimEnd` drops is a blank suffix. */
  lemma TrimEndDropsBlank(s: string)
    ensures IsBlank(s[|TrimEnd(s)|..])
  {
    TrimEndDropsWhitespace(s);
    BlankDrop(s, |TrimEnd(s)|);
  }

  /** A prefix of whitespace characters, taken as a string, is blank. */
  lemma BlankTake(s: string, n: int)
    requires 0 <= n <= |s|
    requires forall k :: 0 <= k < n ==> IsWhitespace(s[k])
    ensures IsBlank(s[..n])
  {
    assert forall k :: 0 <= k < n ==> s[..n][k] == s[k];
  }

  /** A suffix of whitespace characters, taken as a string, is blank. */
  lemma BlankDrop(s: string, n: int)
    requires 0 <= n <= |s|
    requires forall k :: n <= k < |s| ==> IsWhitespace(s[k])
    ensures IsBlank(s[n..])
  {
    assert forall k :: 0 <= k < |s| - n ==> s[n..][k] == s[n + k];
  }

  /** Trimming only removes characters: one absent from `s` is absent from its trim. */
  lemma TrimKeepsOut(s: string, c: char)
    requires c !in s
    ensures c !in Trim(s)
  {
    var a := TrimStart(s);
    assert c !in a by {
      forall k | 0 <= k < |a| ensures a[k] != c {
        assert a[k] == s[|s| - |a| + k];
      }
    }
    var r := TrimEnd(a);
    assert c !in r by {
      forall k | 0 <= k < |r| ensures r[k] != c {
        assert r[k] == a[k];
      }
    }
  }

  /** `s.split(",")`: the maximal comma-free pieces of `s`, in order; never empty
      (the empty string splits into one empty piece). */
  function Split(s: string): (r: seq<string>)
    ensures |r| >= 1
    ensures forall i :: 0 <= i < |r| ==> ',' !in r[i]
    decreases |s|
  {
    if s == [] then [[]]
    else if s[0] == ',' then [[]] + Split(s[1..])
    else
      var rest := Split(s[1..]);
      [[s[0]] + rest[0]] + rest[1..]
  }

  /** `xs.join(sep)`: empty for no items, otherwise starting with the first item (`JoinSplit` and
      `SplitJoin`: with `","` it is the inverse of `Split`). */
  function Join(xs: seq<string>, sep: string): (r: string)
    ensures xs == [] ==> r == []
    ensures xs != [] ==> xs[0] <= r
    decreases |xs|
  {
    if |xs| == 0 then []
    else if |xs| == 1 then xs[0]
    else xs[0] + sep + Join(xs[1..], sep)
  }

  /** Trimming leaves an already trimmed string alone; in particular it is idempotent. */
  lemma TrimOfTrimmed(s: string)
    requires IsTrimmed(s)
    ensures Trim(s) == s
  {
    assert TrimStart(s) == s;
    assert TrimEnd(s) == s;
  }

  /** Leading whitespace in front of a trimmed, non-empty string is stripped and nothing else. */
  lemma {:induction false} TrimStartAfterBlank(w: string, x: string)
    requires IsBlank(w)
    requires x != [] && !IsWhitespace(x[0])
    ensures TrimStart(w + x) == x
    decreases |w|
  {
    if w == [] {
      assert w + x == x;
    } else {
      assert (w + x)[0] == w[0];
      assert (w + x)[1..] == w[1..] + x;
      TrimStartAfterBlank(w[1..], x);
    }
  }

  /** `(w + x).trim() == x` for blank `w` and trimmed non-empty `x`: this is why `", "` joins
      come back apart cleanly. */
  lemma TrimAfterBlank(w: string, x: string)
    requires IsBlank(w)
    requires x != [] && IsTrimmed(x)
    ensures Trim(w + x) == x
  {
    TrimStartAfterBlank(w, x);
    assert TrimEnd(x) == x;
  }

  /** Splitting a comma-free string gives the string back as the only piece. */
  lemma {:induction false} SplitCommaFree(a: string)
    requires ',' !in a
    ensures Split(a) == [a]
    decreases |a|
  {
    if a != [] {
      assert a == [a[0]] + a[1..];
      SplitCommaFree(a[1..]);
      assert [a[0]] + a[1..] == a;
    }
  }

  /** Splitting distributes over a comma: `(a + "," + b).split(",")` is `a`'s pieces followed by `b`'s.
      In particular the pieces keep their left-to-right order. */
  lemma {:induction false} SplitAtComma(a: string, b: string)
    ensures Split(a + [','] + b) == Split(a) + Split(b)
    decreases |a|
  {
    var s := a + [','] + b;
    if a == [] {
      assert s == [','] + b;
      assert s[1..] == b;
    } else {
      assert s[0] == a[0];
      assert s[1..] == a[1..] + [','] + b;
      SplitAtComma(a[1..], b);
    }
  }

  /** Joining with `","` undoes splitting on `","`. */
  lemma {:induction false} JoinSplit(s: string)
    ensures Join(Split(s), ",") == s
    decreases |s|
  {
    if s != [] {
      JoinSplit(s[1..]);
      var rest := Split(s[1..]);
      if s[0] == ',' {
        assert ([[]] + rest)[1..] == rest;
      } else {
        JoinPrepend(s[0], rest, ",");
      }
      assert s == [s[0]] + s[1..];
    }
  }

  /** A character put in front of the first item comes out in front of the joined text. */
  lemma JoinPrepend(c: char, xs: seq<string>, sep: string)
    requires |xs| >= 1
    ensures Join([[c] + xs[0]] + xs[1..], sep) == [c] + Join(xs, sep)
  {
    var ys := [[c] + xs[0]] + xs[1..];
    if |xs| > 1 {
      assert ys[1..] == xs[1..];
      var tail := Join(xs[1..], sep);
      assert ([c] + xs[0]) + sep + tail == [c] + (xs[0] + sep + tail);
    }
  }

  /** Splitting undoes joining with `","` when no item contains a comma. */
  lemma {:induction false} SplitJoin(xs: seq<string>)
    requires |xs| >= 1
    requires forall i :: 0 <= i < |xs| ==> ',' !in xs[i]
    ensures Split(Join(xs, ",")) == xs
    decreases |xs|
  {
    if |xs| == 1 {
      SplitCommaFree(xs[0]);
    } else {
      SplitJoin(xs[1..]);
      SplitAtComma(xs[0], Join(xs[1..], ","));
      SplitCommaFree(xs[0]);
      assert xs[0] + "," + Join(xs[1..], ",") == xs[0] + [','] + Join(xs[1..], ",");
      assert [xs[0]] + xs[1..] == xs;
    }
  }
}

=== FILE: wrappers.dfy ===
/** Optional values, as JavaScript code sees them. */
module Wrappers {

  /** A value that is either missing or present. */
  datatype Option<+T> = None | Some(value: T) {

    /** The present value, or `default` when missing (the `x ?? d` idiom). */
    function GetOr(default: T): T {
      match this
      case Some(v) => v
      case None => default
    }
  }

  /** A JavaScript slot that can be `undefined` (Absent), `null` (Null) or hold a value.
      The two empty states are distinct under strict equality, and some libraries
      (drizzle's `update().set()`) treat them differently. */
  datatype Nullable<+T> = Absent | Null | Present(value: T) {

    /** How a nullable column stores the slot: both empty states become SQL NULL. */
    function ToOption(): (r: Option<T>)
      ensures r.Some? <==> Present?
      ensures Present? ==> r.value == value
    {
      match this
      case Present(v) => Some(v)
      case _ => None
    }
  }

  /** An `Option` seen as a JavaScript slot: missing is `undefined`. */
  function Lift<T>(o: Option<T>): (r: Nullable<T>)
    ensures r.Null? == false
    ensures r.ToOption() == o
  {
    match o
    case Some(v) => Present(v)
    case None => Absent
  }

  /** `x ?? null`: an `Option` as a slot that is always sent, missing becoming `null`. */
  function OrNull<T>(o: Option<T>): (r: Nullable<T>)
    ensures r.Absent? == false
    ensures r.ToOption() == o
  {
    match o
    case Some(v) => Present(v)
    case None => Null
  }
}
